=== FILE: README.md ===
# service-logger, modelled in Dafny

`service-logger` is a logging library for services. Each application installs one
logger in the `log` crate's global slot. That logger filters records by severity.
There are three loggers:

- **Console logger.** It prints each line to standard error (for `Error`) or to
  standard output (for every other level).
- **File logger.** It hands lines to a bounded channel without waiting. A
  background worker appends them to a buffered file. Rotation happens only when a
  line arrives: if the file then already holds more than `max_count` lines, the
  worker first copies it to `<path>.old` and truncates it, and then writes the line.
- **Redis logger.** It hands `(line, level)` pairs to a bounded channel. A
  background worker batches them. It publishes a batch on an explicit flush, or
  when a line arrives and either brings the batch to 500 entries or finds more than
  ten whole seconds gone since the last publish. There is no timer: with no further
  lines, a batch waits for the next line or flush. A batch is
  sent as one pipeline of `PUBLISH` commands, one per entry. Each command carries
  the line as a `LogMessage` record, packed with bincode and then Base64-encoded
  (section 4 of RFC 4648). Each line goes to one of three channels
  `monitoring-nomad:<group>.stdout|warn|stderr`, chosen by severity. When a publish
  fails, the worker reconnects and resends the same batch until the broker accepts
  it.

`lib.rs` chooses the logger from environment variables.

The model states every part as pure functions over immutable datatypes. There are
no threads, no clock and no broker. Instead:

- a channel is a bounded FIFO sequence (`Mailbox`);
- each background worker is a step function over the events its `recv` yields;
- time is a reading in milliseconds carried by each event;
- the broker and the file system are oracle inputs, such as whether a query, a
  reconnection, a copy or a write succeeds;
- every `expect` that can panic becomes a `halted` state, or a `Panic` plan;
- environment variables are `Option<string>` inputs.

Modules, leaves first:

- `Base`: `Option` and bytes.
- `Levels`: the `log` crate's level order and the shared `enabled` test.
- `LogRecord`: `BackgroundLoggerMessage` and `format_log`.
- `Mailbox`: `crossbeam::channel::bounded` with `try_send` and `recv`.
- `LogFacade`: `set_boxed_logger` and `set_max_level`, plus the macros' level test.
- `Utf8`, `Bincode`, `Base64`: the byte formats the wire record is built from.
- `RedisLogMessage`: `LogMessage`, `redis_serialize` and the test deserialiser.
- `ConsoleLogger`, `FileLogger`, `RedisLogger`: the three sinks.
- `ServiceLogger`: `from_env` and `init_from_env`.

The Redis pipeline is built with `Pipeline::new()`, which is not a `MULTI`/`EXEC`
transaction, so a batch is not published atomically. A failed execution may already
have delivered any selection of the batch's commands, in order, and the retry then
sends the whole batch again. The model allows every such selection and assumes
nothing more about the client. A line can therefore reach its channel more than
once. It is never lost once it has entered the batch, the final, successful
execution always carries the whole batch in order, and no publish sends anything
but its own batch's commands.

The file worker ignores a failed copy to `<path>.old` with `.ok()`, without
reporting it, and it does not create the log file's parent directory.

Each channel records whether its receiving end still exists. The receiver lives in
the worker: the file worker's thread drops it when an `expect` panics, and the
Redis worker's `run` drops it when it returns after three failed receives. From
then on every `try_send` fails with `Disconnected`, whatever the channel's fill.
In the running program the Redis worker never reaches that exit. `recv` fails only
when the channel is empty and every sender is gone, and the only sender is held by
the registered `RedisLogger`, which lives for the rest of the program. The failed
receives and the `Stopped` phase model lines 119-126 of `redis_logger.rs` as
written, but in practice the worker never gets there.

## Model

| member | source | states |
|---|---|---|
| LogRecord.FormatLog | service-logger/src/lib.rs:79-82 | The line is the rendered arguments followed by exactly one newline, so it always ends with `'\n'`. |
| LogRecord.FormatLogInjective | service-logger/src/lib.rs:80-82 | Two records render to the same line exactly when their arguments are equal. |
| Mailbox.TrySend | service-logger/src/loggers/redis_logger.rs:237-242 | `try_send` never waits. A channel whose receiver is gone refuses with `Disconnected`, whatever its fill. Otherwise the send succeeds exactly when there is room and then appends at the back, and a full channel refuses with `Full`. A refused send leaves the channel exactly as it was. |
| Mailbox.Disconnect | service-logger/src/file_logger.rs:16 | Dropping the receiving end keeps the queue and the capacity and leaves the channel disconnected. |
| Mailbox.Offer | service-logger/src/file_logger.rs:75-78 | A front end's send is queued exactly when the receiver is alive and there is room. Otherwise it is dropped, for either error, with the channel unchanged. |
| Mailbox.Recv | service-logger/src/file_logger.rs:25 | `recv` takes the oldest message, and the rest keep their order. |
| Mailbox.SendAllKeepsPrefix | service-logger/src/loggers/redis_logger.rs:237-242 | A burst of sends with no receive in between keeps the longest head of the burst that fits, in order, and drops the rest. Once the receiver is gone it keeps nothing. |
| Mailbox.DrainAllIsQueue | service-logger/src/loggers/redis_logger.rs:114 | Receiving until the channel is empty yields exactly its queue, in order. |
| Mailbox.FifoRoundTrip | service-logger/src/loggers/redis_logger.rs:60 | Messages sent to a fresh channel with room for all of them are received once each, in sending order. |
| LogFacade.Register | service-logger/src/loggers/console_logger.rs:59-63 | Registration succeeds exactly when no logger is installed, and only then sets the global maximum. A failed registration changes nothing. |
| LogFacade.RegisterOnce | service-logger/src/loggers/redis_logger.rs:67-72 | After one successful registration, a second fails and keeps the first logger and its maximum. |
| LogFacade.PassesIffEnabled | service-logger/src/file_logger.rs:125-126 | After registration, the global maximum lets a level through exactly when the logger's `enabled` would. |
| ConsoleLogger.ParseRustLog | service-logger/src/loggers/console_logger.rs:39-51 | An exact, case-sensitive level name in `RUST_LOG` selects that level. Any other value, or none, selects `Info`. |
| ConsoleLogger.ParseLevelName | service-logger/src/loggers/console_logger.rs:41-48 | The five names are distinct, and parsing a level's name gives back the level. |
| ConsoleLogger.IsEnabled | service-logger/src/loggers/console_logger.rs:12-14 | `enabled` holds exactly for the levels listed as at least as severe as the maximum. |
| ConsoleLogger.Log | service-logger/src/loggers/console_logger.rs:16-24 | An `Error` line is appended to standard error and any other level's line to standard output. The other stream is untouched, and every record given to it is written. |
| ConsoleLogger.Flush | service-logger/src/loggers/console_logger.rs:26 | `flush` changes nothing. |
| ConsoleLogger.Init | service-logger/src/loggers/console_logger.rs:54-64 | The logger is installed, and the global maximum set to its level, exactly when no logger was installed. Otherwise nothing changes. |
| ConsoleLogger.EmitAfterInit | service-logger/src/loggers/console_logger.rs:16-24 | Since `log` does not test `enabled`, the global maximum does the filtering. After `init`, a record is written exactly when its level is enabled, and on the stream its severity selects. |
| ConsoleLogger.Emit | service-logger/src/loggers/console_logger.rs:16-24 | With no logger installed, a logging macro writes nothing. With one installed, the console changes exactly when the global maximum lets the level through, and then as the logger's `log` writes. |
| ConsoleLogger.EmitBeforeInit | service-logger/src/loggers/console_logger.rs:54-64 | Before any `init`, no record reaches the console. |
| FileLogger.NewConfig | service-logger/src/file_logger.rs:95-102 | The default configuration keeps the path, with level `Info` and 100000 lines per file. |
| FileLogger.OldPath | service-logger/src/file_logger.rs:40-41 | The backup path is the log path followed by `.old`. |
| FileLogger.OldPathDistinct | service-logger/src/file_logger.rs:39-43 | The backup is never the log file itself, and distinct log paths, taken as Unicode strings, have distinct backups. |
| FileLogger.Step | service-logger/src/file_logger.rs:23-62 | One loop turn keeps the counter equal to the file's line count and at most `max_count + 1`. A write that goes through appends its line, to an emptied file exactly when the counter was over the limit. Rotation gives `.old` the whole prior file, flushed and buffered alike, unless the copy fails. Without rotation `.old` is untouched. A flush changes neither the counter nor the content nor `.old`. A halted worker ignores everything. A running worker halts exactly when a step it reaches panics: the `recv`, a requested flush, the `write_all`, or, when rotating, a flush before the copy or the re-creation of the file. |
| FileLogger.RotatesIffOverLimit | service-logger/src/file_logger.rs:29 | A successful write leaves the counter no higher than before exactly when it rotated, that is, when the counter was over `max_count`. |
| FileLogger.RotationKeepsFullFile | service-logger/src/file_logger.rs:29-55 | A rotating write leaves the file holding only the new line, with count 1. The `.old` file receives all `max_count + 1` lines written since the last reset. |
| FileLogger.Run | service-logger/src/file_logger.rs:23-62 | Any sequence of events keeps the counter invariant and the limit. |
| FileLogger.RunWrites | service-logger/src/file_logger.rs:23-62 | From an empty file, fault-free writes mixed with successful flushes leave the file holding a suffix of the written lines in arrival order. The suffix starts after a whole number of blocks of `max_count + 1` lines and holds between 1 and `max_count + 1` lines. After a rotation with successful copies, `.old` holds the block just before it. |
| FileLogger.WritesInvariantStep | service-logger/src/file_logger.rs:27-59 | One more fault-free write or successful flush keeps that description true. A flush adds no line. |
| FileLogger.FlushingStep | service-logger/src/file_logger.rs:57-59 | A successful flush changes no line, no counter and not `.old`, so the description of the file still holds. |
| FileLogger.NoRotationUpToLimit | service-logger/src/file_logger.rs:29-58 | With at most `max_count + 1` lines written, whatever flushes come in between, there is no rotation. The file holds every line in arrival order, the counter equals their number, and `.old` is untouched. |
| FileLogger.IsEnabled | service-logger/src/file_logger.rs:66-68 | `enabled` holds exactly for the levels listed as at least as severe as the maximum. |
| FileLogger.Log | service-logger/src/file_logger.rs:70-79 | A record below the maximum is never sent. An enabled one is queued as its formatted line exactly when the receiver is alive and there is room. Otherwise it is dropped with the channel unchanged. A queued send leaves the receiver as alive as it was. |
| FileLogger.Flush | service-logger/src/file_logger.rs:81-86 | A flush request is queued exactly when the receiver is alive and there is room. Otherwise it is dropped with the channel unchanged. A queued send leaves the receiver as alive as it was. |
| FileLogger.SenderView | service-logger/src/file_logger.rs:16 | The front end's channel is the worker's, disconnected exactly when the worker has halted, since the panic ends the thread that holds the receiver. |
| FileLogger.HaltedWorkerDropsAll | service-logger/src/file_logger.rs:75-85 | After the worker halts, no record and no flush request is queued, however empty the channel, and the channel stays as it was. |
| FileLogger.Init | service-logger/src/file_logger.rs:106-133 | A failed file creation panics before anything is registered. The worker starts exactly when the file was created and no logger was installed. It starts on an empty file with counter 0, a fresh 4096-slot channel whose receiver is alive, the configured limit, and the level installed globally. |
| RedisLogMessage.Deserialize | service-logger/src/redis_log_message.rs:37-43 | Input that is not Base64 yields one error value, and Base64 whose bytes are not a packed record yields the other. A decoded record is what unpacking the decoded bytes gives. |
| RedisLogMessage.Pack | service-logger/src/redis_log_message.rs:5-16 | The packing is the four strings in declaration order, `message`, `group`, `index`, `channel_name`, each length-prefixed, then the optional metadata. |
| RedisLogMessage.Unpack | service-logger/src/redis_log_message.rs:41 | Bytes that do not start with four length-prefixed strings unpack to nothing. A record that unpacks has those four strings as its string fields, in declaration order. |
| RedisLogMessage.RedisSerialize | service-logger/src/redis_log_message.rs:15-18 | The serialised text is alphabet symbols closed by at most two `=`, in whole groups of four, and it Base64-decodes to the packed record. |
| RedisLogMessage.UnpackPack | service-logger/src/redis_log_message.rs:16 | Unpacking the packed fields, whatever bytes follow, gives back the record. |
| RedisLogMessage.PackUnpack | service-logger/src/redis_log_message.rs:41 | Whatever unpacks to a record starts with exactly that record's packing. |
| RedisLogMessage.DeserializeSerialize | service-logger/src/redis_log_message.rs:51-66 | Deserialising a serialised record gives it back, with or without metadata. |
| RedisLogMessage.DeserializeAccepts | service-logger/src/redis_log_message.rs:37-43 | The deserialiser accepts only canonical Base64 of a packed record followed by ignored bytes. |
| Base64.DecodeIff | service-logger/src/redis_log_message.rs:17 | Decoding text gives some bytes exactly when encoding those bytes gives that text. |
| Base64.Encode | service-logger/src/redis_log_message.rs:17 | The encoding of `n` bytes has `4 * ceil(n / 3)` characters. |
| Base64.Decode | service-logger/src/redis_log_message.rs:40 | Text whose length is not a multiple of four is rejected, and text that decodes is alphabet symbols up to its padding. |
| Base64.DecodeEncode | service-logger/src/redis_log_message.rs:17 | Decoding the encoding of any bytes gives them back. |
| Base64.EncodeDecode | service-logger/src/redis_log_message.rs:40 | Whatever decodes is the encoding of what it decodes to. |
| Base64.EncodeLength | service-logger/src/redis_log_message.rs:17 | The encoding of `n` bytes has `4 * ceil(n / 3)` characters. |
| Base64.EncodeIsPaddedText | service-logger/src/redis_log_message.rs:17 | The encoding uses only the alphabet, then at most two trailing `=`. |
| Bincode.GetPutFrame | service-logger/src/redis_log_message.rs:16 | A length-prefixed byte run whose length fits a `u64` reads back as itself, whatever follows, and takes exactly the bytes written. |
| Bincode.PutGetFrame | service-logger/src/redis_log_message.rs:41 | Whatever reads as a length-prefixed run starts with exactly that run's framing, and its length fits a `u64`. |
| Bincode.GetPutMany | service-logger/src/redis_log_message.rs:16 | For any value format that reads back what it writes, values written one after another read back in order and take exactly the bytes written. |
| Bincode.PutGetMany | service-logger/src/redis_log_message.rs:41 | For any value format whose reads are always its own writes, whatever reads as several values starts with exactly their writes, and each value is admitted. |
| Bincode.GetPutStr | service-logger/src/redis_log_message.rs:16 | Reading a written string, whatever follows, gives it back along with its length. |
| Bincode.PutGetStr | service-logger/src/redis_log_message.rs:41 | Whatever reads as a string starts with exactly that string's encoding. |
| Bincode.GetPutStrs | service-logger/src/redis_log_message.rs:16 | Reading back several written strings gives them back, in order. |
| Bincode.PutGetStrs | service-logger/src/redis_log_message.rs:41 | Whatever reads as several strings starts with exactly their encodings. |
| Bincode.GetPutOption | service-logger/src/redis_log_message.rs:16 | Reading a written optional string gives it back. |
| Bincode.PutGetOption | service-logger/src/redis_log_message.rs:41 | Whatever reads as an optional string starts with exactly its encoding. |
| Bincode.LeRoundTrip | service-logger/src/redis_log_message.rs:16 | Length prefixes read back as the length written. |
| Utf8.DecodeEncode | service-logger/src/redis_log_message.rs:16 | A string's UTF-8 bytes decode back to the string. |
| Utf8.EncodeDecode | service-logger/src/redis_log_message.rs:41 | Bytes that decode are exactly the encoding of what they decode to. |
| RedisLogger.NewConfig | service-logger/src/loggers/redis_logger.rs:263-274 | The configuration keeps the connection string, group and index, with the maximum level always `Info`. |
| RedisLogger.ChannelNames | service-logger/src/loggers/redis_logger.rs:23-25 | Each of the three channel names is `monitoring-nomad:`, then the group name, then `.stdout`, `.warn` or `.stderr` for its kind. |
| RedisLogger.ChannelNamesDistinct | service-logger/src/loggers/redis_logger.rs:23-25 | A group's three channels are pairwise distinct, and two groups share a channel of the same kind only when they are the same group. |
| RedisLogger.RoutingIff | service-logger/src/loggers/redis_logger.rs:152-156 | A line lands on the stderr channel exactly for `Error` and on the warn channel exactly for `Warn`. It lands on stdout exactly for `Info` and less severe levels. |
| RedisLogger.ChannelFor | service-logger/src/loggers/redis_logger.rs:152-156 | Each line goes to one of the group's three channels: `Error` to stderr, `Warn` to warn, and `Info` and every less severe level to stdout. |
| RedisLogger.Pipeline | service-logger/src/loggers/redis_logger.rs:213-223 | The pipeline has one command per buffered entry, in buffer order, each on its entry's routed channel. |
| RedisLogger.PipelineDecodes | service-logger/src/loggers/redis_logger.rs:148-165 | Command `i`'s payload deserialises to entry `i`'s line, with the configured group and index, the channel it is published on, and no metadata. |
| RedisLogger.Delivered | service-logger/src/loggers/redis_logger.rs:169 | One execution of the pipeline delivers commands of that pipeline only, no more of them than it has, and all of them in order when it succeeds. |
| RedisLogger.RetryAttempts | service-logger/src/loggers/redis_logger.rs:171-206 | Every retry resends commands of the same list only. The loop succeeds exactly when some reconnection is followed by a successful execution, and the last execution then delivers the whole list. |
| RedisLogger.Attempts | service-logger/src/loggers/redis_logger.rs:167-206 | A publish executes the pipeline at least once. Every execution delivers commands of the same list only. It succeeds exactly when some execution does, and the last execution of a success delivers the whole list. |
| RedisLogger.ElapsedSecs | service-logger/src/loggers/redis_logger.rs:135 | Elapsed time is the whole number of seconds between the last flush and now, rounded down, and 0 when the clock has not advanced. |
| RedisLogger.PublishBuffer | service-logger/src/loggers/redis_logger.rs:147-210 | The new wire traffic holds only this batch's commands, and earlier traffic is never altered. On success the batch moves to the confirmed entries and is cleared, the clock restarts at `now`, and the wire ends with the whole pipeline. Without success nothing is cleared or confirmed, the clock is not restarted, and the worker is still in its retry loop. |
| RedisLogger.Step | service-logger/src/loggers/redis_logger.rs:111-145 | A running worker keeps its batch below 500 and its failure count below 3, and a stopped one holds nothing. Every entry ever accepted is confirmed or buffered, once and in order. A received message resets the failure count. Fewer than three consecutive failures only count up. The third publishes and stops, or is still retrying; that publish sends only the batch's commands, and the wire ends with the batch's pipeline when the broker accepts. A worker out of its loop ignores events. |
| RedisLogger.FailedTurn | service-logger/src/loggers/redis_logger.rs:119-126 | A failed receive below the limit only counts up. At the limit the batch is published: only its commands are sent, the wire ends with its pipeline once the broker accepts, and the worker then stops, or is still retrying. No entry is lost or duplicated, and earlier wire traffic is kept. |
| RedisLogger.ReceivedTurn | service-logger/src/loggers/redis_logger.rs:114-143 | A received message resets the failure count. A line is added to the entries kept, buffered or confirmed, once and at the end, and a flush request adds nothing. The batch bounds hold, and earlier wire traffic is kept. |
| RedisLogger.LineTriggersIff | service-logger/src/loggers/redis_logger.rs:131-139 | For any broker behaviour: after a line is pushed, a publish starts (the batch is cleared, or the worker is retrying) exactly when the batch has reached 500 entries or more than ten whole seconds have passed. Otherwise the batch grows by that line and nothing is sent. A publish the broker accepts confirms the whole batch and restarts the clock; one it does not keeps the batch. |
| RedisLogger.FlushAlwaysPublishes | service-logger/src/loggers/redis_logger.rs:140-142 | For any broker behaviour, a flush request publishes, even an empty batch, and sends only that batch's commands. The broker accepts it, and the batch is confirmed and cleared, the clock restarted and the wire ends with its pipeline; or the worker is in the retry loop with the batch kept. |
| RedisLogger.ClearedOnlyOnSuccess | service-logger/src/loggers/redis_logger.rs:169-209 | While the broker keeps failing, no entry is confirmed, the batch keeps every entry, and the clock is not restarted. |
| RedisLogger.Run | service-logger/src/loggers/redis_logger.rs:111-145 | Any sequence of events keeps the batch and failure-count bounds. |
| RedisLogger.ThreeFailuresStop | service-logger/src/loggers/redis_logger.rs:112-127 | Two receive failures leave the worker running, with its batch and the wire untouched. A third publishes the batch and stops the worker: earlier wire traffic is kept and the wire ends with the batch's pipeline. |
| RedisLogger.RunKeepsEveryLine | service-logger/src/loggers/redis_logger.rs:113-145 | Over a run that keeps the loop going, every received line is confirmed or still buffered, once each and in arrival order. |
| RedisLogger.PipelineAppend | service-logger/src/loggers/redis_logger.rs:213-223 | The pipeline of two batches one after the other is their two pipelines joined. |
| RedisLogger.PublishKeepsConfirmedOnWire | service-logger/src/loggers/redis_logger.rs:147-210 | If the broker has been sent every confirmed entry's command, in order, it still has after a publish: a success confirms exactly the batch whose pipeline ends the new traffic, and a failure confirms nothing. |
| RedisLogger.StepKeepsConfirmedOnWire | service-logger/src/loggers/redis_logger.rs:111-145 | Every loop turn keeps the confirmed entries' commands on the wire, in order. |
| RedisLogger.RunConfirmedOnWire | service-logger/src/loggers/redis_logger.rs:111-210 | From a worker that has sent and confirmed nothing, after any sequence of events the wire holds the `PUBLISH` of every confirmed entry, in confirmation order, interleaved with any resent or partly delivered commands. |
| RedisLogger.IsEnabled | service-logger/src/loggers/redis_logger.rs:227-229 | `enabled` holds exactly for the levels listed as at least as severe as the maximum. |
| RedisLogger.Log | service-logger/src/loggers/redis_logger.rs:231-243 | A record below the maximum is never sent. An enabled one is queued with its level exactly when the receiver is alive and there is room. Otherwise it is dropped with the channel unchanged. A queued send leaves the receiver as alive as it was. |
| RedisLogger.Flush | service-logger/src/loggers/redis_logger.rs:245-252 | A flush request tagged with the maximum level is queued exactly when the receiver is alive and there is room. Otherwise it is dropped with the channel unchanged. A queued send leaves the receiver as alive as it was. |
| RedisLogger.SenderView | service-logger/src/loggers/redis_logger.rs:119-124 | The front end's channel is the worker's, disconnected exactly when the worker has stopped, since `run` returns and drops the receiver. A worker still retrying keeps it. |
| RedisLogger.StoppedWorkerDropsAll | service-logger/src/loggers/redis_logger.rs:237-251 | After the worker stops, no record and no flush request is queued, however empty the channel, and the channel stays as it was. |
| RedisLogger.InitTask | service-logger/src/loggers/redis_logger.rs:21-92 | A failed client or connection ends start-up before registration. The worker runs exactly when both succeed and no logger was installed. It runs with an empty batch, the clock at start, the derived channels, a 32768-slot channel whose receiver is alive, and the level installed globally. |
| ServiceLogger.FromEnv | service-logger/src/lib.rs:33-45 | The kind is Redis exactly when `LOG_KIND` is exactly `REDIS`. The other variables are kept as given. |
| ServiceLogger.InitFromEnv | service-logger/src/lib.rs:49-64 | The console kind takes its level from `RUST_LOG`. The Redis kind panics when the connection string or the group name is missing, checking the connection string first, with the matching message. Otherwise it builds an `Info` config in which a missing `ALLOC_INDEX` becomes `"0"`. |
| ServiceLogger.DefaultsToConsoleAtInfo | service-logger/src/lib.rs:33-64 | With neither `LOG_KIND` nor `RUST_LOG` set, the result is a console logger at `Info`. |
| ServiceLogger.OtherKindsAreConsole | service-logger/src/lib.rs:34-37 | Every `LOG_KIND` other than exactly `REDIS` gives the console logger. |

## Left out

- Threads and concurrency. Each channel is a sequential FIFO, and the front ends and workers are separate functions over it. The thread spawn and the 3-second sleep in `RedisLogger::init` (redis_logger.rs:14-19) are not modelled; `InitTask` is.
- Wall-clock time. The clock is a millisecond reading carried by each event. `last_flush` is set to the reading of the event that triggered the publish, so time spent in the retry loop's 2-second backoff sleeps is not modelled.
- RedisLogger.Delivered: a failed execution is assumed to deliver some of the pipeline's commands, in pipeline order, each at most once. Reordering or duplication inside one execution is not modelled.
- The broker's answer to an empty pipeline. The Redis client answers an empty pipeline without any I/O, so it cannot fail, but the broker oracle may still fail it. Every contract holds for every oracle outcome, so it holds for the real one too.
- The retry loop is unbounded in the code. The model runs it over a finite list of broker outcomes. When the list runs out without success, the worker is left in `Retrying`, still holding its batch, and ignores later events.
- The Redis client and connection objects, and their replacement inside the retry loop. Only the success or failure of opening them and of each query is modelled.
- The printout of the parsed environment in `init_from_env` (lib.rs:51), the configuration printout, "Redis background logger running.", and every `eprintln!` and retry `println!` diagnostic. None of them changes any state the model keeps.
- The `expect` on `redis_serialize` in `build_pipeline`. Serialising this record cannot fail, and the model's serialiser is total.
- The byte layouts of bincode and base64, which live in libraries outside this repository. The model assumes:
  - bincode writes a `u64` little-endian length before each string's UTF-8 bytes, and a tag byte 0 or 1 before an optional value;
  - bincode's `deserialize` rejects any other tag and ignores trailing bytes;
  - base64 uses the standard alphabet with `=` padding and accepts only canonical encodings.
- `BufWriter`'s automatic spills to disk. The split between written and buffered lines changes only at explicit flushes and rotations, so the file's logical content is exact but its on-disk prefix is not.
- Partial effects of a failing `write_all`, flush or copy. A failing write or flush writes nothing, and a failing copy leaves `.old` as it was.
- Bytes in the log file. The file is a sequence of entries, one per `write_all`, which is what `log_message_count` counts. An entry whose arguments contain `'\n'` spans several text lines on disk, and the model still counts it once, as the code does.
- FileLogger.Run: `log_message_count` is a `usize` in the code. The model's counter is unbounded, so a `max_count` of `usize::MAX` (where the counter would overflow before rotating) is not modelled.
- FileLogger.OldPath: paths are modelled as Unicode strings. `to_string_lossy` (file_logger.rs:41) is not modelled, so for a path that is not valid UTF-8 the real backup is not the path plus `.old`, and two such paths can share one backup, which `OldPathDistinct` does not cover.
- FileLogger.Init: the log file is truncated before registration. A failed registration therefore empties the file, which the `NotRegistered` outcome does not record.
- The `log` crate's compile-time `STATIC_MAX_LEVEL` and its macros, other than the runtime maximum-level test that `Emit` models for the console.
- Failures of `print!` and `eprint!` themselves.
- The deserialiser's reused `Vec` buffer. Decoding is a pure function.
- The ignored console test, which depends on environment variables and global state.
- error-log-publisher/src/main.rs is not part of this model.

=== FILE: base.dfy ===
/** Small shared vocabulary: optional values and bytes. */
module Base {

  /** A value that may be absent, as Rust's `Option`. */
  datatype Option<+T> = None | Some(value: T) {

    /** The carried value, or `default` when absent (Rust's `unwrap_or`). */
    function GetOr(default: T): (r: T)
      ensures Some? ==> r == value
      ensures None? ==> r == default
    {
      match this
      case Some(v) => v
      case None => default
    }
  }

  /** An octet. */
  type byte = x: int | 0 <= x < 256

  function Min(a: int, b: int): int
  {
    if a <= b then a else b
  }
}

=== FILE: base64.dfy ===
/** Base64 with the standard alphabet and `=` padding (section 4 of RFC 4648), the
    text-safe stage of the wire record. It is built in two layers: bytes to 6-bit
    values, and values to alphabet symbols. Decoding is canonical: padding is required
    and the unused low bits of the last symbol must be zero. */
module Base64 {
  import opened Base

  type sextet = x: int | 0 <= x < 64

  /** The symbol for a 6-bit value: `A`-`Z`, `a`-`z`, `0`-`9`, `+`, `/`. */
  function CharOf(v: sextet): (c: char)
    ensures c != '='
  {
    if v < 26 then ('A' as int + v) as char
    else if v < 52 then ('a' as int + (v - 26)) as char
    else if v < 62 then ('0' as int + (v - 52)) as char
    else if v == 62 then '+'
    else '/'
  }

  /** The value of a symbol of the alphabet; `None` for any other character. */
  function ValueOf(c: char): Option<sextet>
  {
    if 'A' <= c <= 'Z' then Some(c as int - 'A' as int)
    else if 'a' <= c <= 'z' then Some(c as int - 'a' as int + 26)
    else if '0' <= c <= '9' then Some(c as int - '0' as int + 52)
    else if c == '+' then Some(62)
    else if c == '/' then Some(63)
    else None
  }

  /** The symbol set of section 4 of RFC 4648. */
  predicate InAlphabet(c: char)
  {
    ValueOf(c).Some?
  }

  /** `ValueOf` inverts `CharOf`, so the 64 symbols are distinct and all in the alphabet. */
  lemma ValueOfCharOf(v: sextet)
    ensures ValueOf(CharOf(v)) == Some(v)
  {
  }

  /** And `CharOf` inverts `ValueOf` on the alphabet. */
  lemma CharOfValueOf(c: char)
    requires InAlphabet(c)
    ensures CharOf(ValueOf(c).value) == c
  {
  }

  /* The four 6-bit values of a group of three bytes `b0 b1 b2`. */
  function Sym0(b0: byte): sextet { b0 / 4 }
  function Sym1(b0: byte, b1: byte): sextet { (b0 % 4) * 16 + b1 / 16 }
  function Sym2(b1: byte, b2: byte): sextet { (b1 % 16) * 4 + b2 / 64 }
  function Sym3(b2: byte): sextet { b2 % 64 }

  /* And the three bytes of a group of four values `v0 v1 v2 v3`. */
  function Byte0(v0: sextet, v1: sextet): byte { (v0 as int) * 4 + (v1 as int) / 16 }
  function Byte1(v1: sextet, v2: sextet): byte { ((v1 as int) % 16) * 16 + (v2 as int) / 4 }
  function Byte2(v2: sextet, v3: sextet): byte { ((v2 as int) % 4) * 64 + v3 as int }

  /* Quotient and remainder are the unique pair that rebuilds the dividend; one lemma
     per divisor keeps the arithmetic linear. */
  lemma DivMod3(x: int, q: int, r: int) requires 0 <= r < 3 && x == 3 * q + r ensures x / 3 == q && x % 3 == r {}
  lemma DivMod4(x: int, q: int, r: int) requires 0 <= r < 4 && x == 4 * q + r ensures x / 4 == q && x % 4 == r {}
  lemma DivMod16(x: int, q: int, r: int) requires 0 <= r < 16 && x == 16 * q + r ensures x / 16 == q && x % 16 == r {}
  lemma DivMod64(x: int, q: int, r: int) requires 0 <= r < 64 && x == 64 * q + r ensures x / 64 == q && x % 64 == r {}

  /* Splitting bytes into values and joining them again gives the bytes back; the
     unused low bits of a group that ends early are zero. */
  lemma JoinSplit0(b0: byte, b1: byte) ensures Byte0(Sym0(b0), Sym1(b0, b1)) == b0
  {
    var r, t := b0 % 4, b1 / 16;
    DivMod16(r * 16 + t, r, t);
  }
  lemma JoinSplit1(b0: byte, b1: byte, b2: byte) ensures Byte1(Sym1(b0, b1), Sym2(b1, b2)) == b1
  {
    var x, y, z, w := b0 % 4, b1 / 16, b1 % 16, b2 / 64;
    DivMod16(x * 16 + y, x, y);
    DivMod4(z * 4 + w, z, w);
  }
  lemma JoinSplit2(b1: byte, b2: byte) ensures Byte2(Sym2(b1, b2), Sym3(b2)) == b2
  {
    var z, w := b1 % 16, b2 / 64;
    DivMod4(z * 4 + w, z, w);
  }
  lemma LowBitsZero1(b0: byte) ensures Sym1(b0, 0) % 16 == 0
  {
    DivMod16((b0 % 4) * 16, b0 % 4, 0);
  }
  lemma LowBitsZero2(b1: byte) ensures Sym2(b1, 0) % 4 == 0
  {
    DivMod4((b1 % 16) * 4, b1 % 16, 0);
  }

  /* Joining values into bytes and splitting them again gives the values back; a value
     whose unused low bits are zero survives a group that ends early. */
  lemma SplitJoin0(v0: sextet, v1: sextet) ensures Sym0(Byte0(v0, v1)) == v0
  {
    var a := (v1 as int) / 16;
    DivMod4(v0 * 4 + a, v0, a);
  }
  lemma SplitJoin1(v0: sextet, v1: sextet, v2: sextet) ensures Sym1(Byte0(v0, v1), Byte1(v1, v2)) == v1
  {
    var a, b, c := (v1 as int) / 16, (v1 as int) % 16, (v2 as int) / 4;
    DivMod4(v0 * 4 + a, v0, a);
    DivMod16(b * 16 + c, b, c);
  }
  lemma SplitJoin2(v1: sextet, v2: sextet, v3: sextet) ensures Sym2(Byte1(v1, v2), Byte2(v2, v3)) == v2
  {
    var b, c, d := (v1 as int) % 16, (v2 as int) / 4, (v2 as int) % 4;
    DivMod16(b * 16 + c, b, c);
    DivMod64(d * 64 + v3, d, v3);
  }
  lemma SplitJoin3(v2: sextet, v3: sextet) ensures Sym3(Byte2(v2, v3)) == v3
  {
    var d := (v2 as int) % 4;
    DivMod64(d * 64 + v3, d, v3);
  }
  lemma SplitJoinShort1(v0: sextet, v1: sextet) requires v1 % 16 == 0 ensures Sym1(Byte0(v0, v1), 0) == v1
  {
    var a := (v1 as int) / 16;
    DivMod4(v0 * 4 + a, v0, a);
  }
  lemma SplitJoinShort2(v1: sextet, v2: sextet) requires v2 % 4 == 0 ensures Sym2(Byte1(v1, v2), 0) == v2
  {
    var b, c := (v1 as int) % 16, (v2 as int) / 4;
    DivMod16(b * 16 + c, b, c);
  }

  /** Bytes to 6-bit values: four per full group, then two values for one left-over
      byte or three for two, the missing low bits set to zero. */
  function Sextets(bs: seq<byte>): seq<sextet>
    decreases |bs|
  {
    if |bs| == 0 then []
    else if |bs| == 1 then [Sym0(bs[0]), Sym1(bs[0], 0)]
    else if |bs| == 2 then [Sym0(bs[0]), Sym1(bs[0], bs[1]), Sym2(bs[1], 0)]
    else Group(bs[0], bs[1], bs[2]) + Sextets(bs[3..])
  }

  /** 6-bit values to bytes; `None` for a single dangling value or non-zero unused bits. */
  function FromSextets(vs: seq<sextet>): Option<seq<byte>>
    decreases |vs|
  {
    if |vs| == 0 then Some([])
    else if |vs| == 1 then None
    else if |vs| == 2 then
      if vs[1] % 16 != 0 then None else Some([Byte0(vs[0], vs[1])])
    else if |vs| == 3 then
      if vs[2] % 4 != 0 then None else Some([Byte0(vs[0], vs[1]), Byte1(vs[1], vs[2])])
    else
      match FromSextets(vs[4..])
      case None => None
      case Some(rest) => Some([Byte0(vs[0], vs[1]), Byte1(vs[1], vs[2]), Byte2(vs[2], vs[3])] + rest)
  }

  /** How many values the last, partial group of `n` bytes takes. */
  function TailValues(n: nat): nat
  {
    if n % 3 == 0 then 0 else if n % 3 == 1 then 2 else 3
  }

  lemma {:induction false} SextetsLength(bs: seq<byte>)
    ensures |Sextets(bs)| == 4 * (|bs| / 3) + TailValues(|bs|)
    decreases |bs|
  {
    if |bs| >= 3 {
      SextetsLength(bs[3..]);
    }
  }

  lemma {:induction false} FromSextetsLength(vs: seq<sextet>)
    requires FromSextets(vs).Some?
    ensures var n := |FromSextets(vs).value|; |vs| == 4 * (n / 3) + TailValues(n)
    decreases |vs|
  {
    if |vs| >= 4 {
      FromSextetsLength(vs[4..]);
    }
  }

  lemma FromSextetsOfOne(b0: byte)
    ensures FromSextets(Sextets([b0])) == Some([b0])
  {
    var v0, v1 := Sym0(b0), Sym1(b0, 0);
    assert Sextets([b0]) == [v0, v1];
    JoinSplit0(b0, 0);
    LowBitsZero1(b0);
  }

  lemma FromSextetsOfTwo(b0: byte, b1: byte)
    ensures FromSextets(Sextets([b0, b1])) == Some([b0, b1])
  {
    var v0, v1, v2 := Sym0(b0), Sym1(b0, b1), Sym2(b1, 0);
    assert Sextets([b0, b1]) == [v0, v1, v2];
    JoinSplit0(b0, b1);
    JoinSplit1(b0, b1, 0);
    LowBitsZero2(b1);
  }

  /** The four values of a full group of three bytes. */
  function Group(b0: byte, b1: byte, b2: byte): (g: seq<sextet>)
    ensures |g| == 4
  {
    [Sym0(b0), Sym1(b0, b1), Sym2(b1, b2), Sym3(b2)]
  }

  /** One full group in front of values that decode. */
  lemma FromSextetsOfGroup(b0: byte, b1: byte, b2: byte, tail: seq<sextet>, rest: seq<byte>)
    requires FromSextets(tail) == Some(rest)
    ensures FromSextets(Group(b0, b1, b2) + tail) == Some([b0, b1, b2] + rest)
  {
    var vs := Group(b0, b1, b2) + tail;
    assert vs[4..] == tail;
    JoinSplit0(b0, b1);
    JoinSplit1(b0, b1, b2);
    JoinSplit2(b1, b2);
  }

  lemma {:induction false} FromSextetsSextets(bs: seq<byte>)
    ensures FromSextets(Sextets(bs)) == Some(bs)
    decreases |bs|
  {
    if |bs| == 1 {
      FromSextetsOfOne(bs[0]);
      assert bs == [bs[0]];
    } else if |bs| == 2 {
      FromSextetsOfTwo(bs[0], bs[1]);
      assert bs == [bs[0], bs[1]];
    } else if |bs| >= 3 {
      FromSextetsSextets(bs[3..]);
      FromSextetsOfGroup(bs[0], bs[1], bs[2], Sextets(bs[3..]), bs[3..]);
      assert Sextets(bs) == Group(bs[0], bs[1], bs[2]) + Sextets(bs[3..]);
      assert bs == [bs[0], bs[1], bs[2]] + bs[3..];
    }
  }

  lemma SextetsOfTwo(vs: seq<sextet>)
    requires |vs| == 2 && FromSextets(vs).Some?
    ensures Sextets(FromSextets(vs).value) == vs
  {
    var b0 := Byte0(vs[0], vs[1]);
    assert FromSextets(vs) == Some([b0]);
    assert Sextets([b0]) == [Sym0(b0), Sym1(b0, 0)];
    SplitJoin0(vs[0], vs[1]);
    SplitJoinShort1(vs[0], vs[1]);
    assert vs == [vs[0], vs[1]];
  }

  lemma SextetsOfThree(vs: seq<sextet>)
    requires |vs| == 3 && FromSextets(vs).Some?
    ensures Sextets(FromSextets(vs).value) == vs
  {
    var b0, b1 := Byte0(vs[0], vs[1]), Byte1(vs[1], vs[2]);
    assert FromSextets(vs) == Some([b0, b1]);
    assert Sextets([b0, b1]) == [Sym0(b0), Sym1(b0, b1), Sym2(b1, 0)];
    SplitJoin0(vs[0], vs[1]);
    SplitJoin1(vs[0], vs[1], vs[2]);
    SplitJoinShort2(vs[1], vs[2]);
    assert vs == [vs[0], vs[1], vs[2]];
  }

  /** One full group in front of values that round-trip. */
  lemma SextetsOfGroup(vs: seq<sextet>, rest: seq<byte>)
    requires |vs| >= 4 && FromSextets(vs[4..]) == Some(rest) && Sextets(rest) == vs[4..]
    ensures FromSextets(vs).Some? && Sextets(FromSextets(vs).value) == vs
  {
    var b := [Byte0(vs[0], vs[1]), Byte1(vs[1], vs[2]), Byte2(vs[2], vs[3])];
    assert FromSextets(vs) == Some(b + rest);
    SplitJoin0(vs[0], vs[1]);
    SplitJoin1(vs[0], vs[1], vs[2]);
    SplitJoin2(vs[1], vs[2], vs[3]);
    SplitJoin3(vs[2], vs[3]);
    assert (b + rest)[3..] == rest;
    assert Sextets(b + rest) == vs[..4] + vs[4..];
    assert vs == vs[..4] + vs[4..];
  }

  lemma {:induction false} SextetsFromSextets(vs: seq<sextet>)
    requires FromSextets(vs).Some?
    ensures Sextets(FromSextets(vs).value) == vs
    decreases |vs|
  {
    if |vs| == 2 {
      SextetsOfTwo(vs);
    } else if |vs| == 3 {
      SextetsOfThree(vs);
    } else if |vs| >= 4 {
      SextetsFromSextets(vs[4..]);
      SextetsOfGroup(vs, FromSextets(vs[4..]).value);
    }
  }

  /** Values to symbols. */
  function Symbols(vs: seq<sextet>): (s: string)
    ensures |s| == |vs|
    ensures forall i :: 0 <= i < |vs| ==> s[i] == CharOf(vs[i])
  {
    seq(|vs|, i requires 0 <= i < |vs| => CharOf(vs[i]))
  }

  /** Symbols to values; `None` if any character is outside the alphabet. */
  function ValuesOf(s: string): (r: Option<seq<sextet>>)
    ensures r.Some? <==> forall i :: 0 <= i < |s| ==> InAlphabet(s[i])
    ensures r.Some? ==> |r.value| == |s| && forall i :: 0 <= i < |s| ==> r.value[i] == ValueOf(s[i]).value
  {
    if forall i :: 0 <= i < |s| ==> InAlphabet(s[i])
    then Some(seq(|s|, i requires 0 <= i < |s| && InAlphabet(s[i]) => ValueOf(s[i]).value))
    else None
  }

  lemma ValuesOfSymbols(vs: seq<sextet>)
    ensures ValuesOf(Symbols(vs)) == Some(vs)
  {
    forall i | 0 <= i < |vs| ensures ValueOf(Symbols(vs)[i]) == Some(vs[i]) {
      ValueOfCharOf(vs[i]);
    }
    assert ValuesOf(Symbols(vs)).value == vs;
  }

  lemma SymbolsValuesOf(s: string)
    requires ValuesOf(s).Some?
    ensures Symbols(ValuesOf(s).value) == s
  {
    forall i | 0 <= i < |s| ensures Symbols(ValuesOf(s).value)[i] == s[i] {
      CharOfValueOf(s[i]);
    }
  }

  /** The `=` that complete the last group of `n` bytes to four characters. */
  function Padding(n: nat): string
  {
    if n % 3 == 0 then "" else if n % 3 == 1 then "==" else "="
  }

  /** Base64 encoding. */
  function Encode(bs: seq<byte>): (s: string)
    ensures |s| == 4 * ((|bs| + 2) / 3)
  {
    SextetsLength(bs);
    GroupCount(|bs|);
    Symbols(Sextets(bs)) + Padding(|bs|)
  }

  /** How many `=` close the text: two, one or none. */
  function PadLength(s: string): (p: nat)
    ensures p <= |s| && p <= 2
  {
    if |s| >= 2 && s[|s| - 1] == '=' && s[|s| - 2] == '=' then 2
    else if |s| >= 1 && s[|s| - 1] == '=' then 1
    else 0
  }

  /** Base64 decoding: `None` for a length that is not a multiple of four, a character
      outside the alphabet (including `=` anywhere but the last two places), a single
      dangling symbol, or non-zero unused bits. */
  function Decode(s: string): (r: Option<seq<byte>>)
    ensures |s| % 4 != 0 ==> r.None?
    ensures r.Some? ==> forall i :: 0 <= i < |s| - PadLength(s) ==> InAlphabet(s[i])
  {
    if |s| % 4 != 0 then None
    else
      match ValuesOf(s[..|s| - PadLength(s)])
      case None => None
      case Some(vs) => FromSextets(vs)
  }

  /** Every encoding is a whole number of four-character groups. */
  lemma EncodeLength(bs: seq<byte>)
    ensures |Encode(bs)| == 4 * ((|bs| + 2) / 3)
    ensures |Encode(bs)| % 4 == 0
  {
    SextetsLength(bs);
    GroupCount(|bs|);
  }

  /** The arithmetic behind `EncodeLength`: values and padding fill whole groups. */
  lemma GroupCount(n: nat)
    ensures 4 * (n / 3) + TailValues(n) + |Padding(n)| == 4 * ((n + 2) / 3)
    ensures (4 * ((n + 2) / 3)) % 4 == 0
  {
    var q, r := n / 3, n % 3;
    if r == 0 {
      DivMod3(n + 2, q, 2);
    } else {
      DivMod3(n + 2, q + 1, r - 1);
    }
  }


  /** The shape of an encoded text: alphabet symbols followed by at most two `=`. */
  predicate PaddedText(s: string)
  {
    && (forall i :: 0 <= i < |s| ==> InAlphabet(s[i]) || s[i] == '=')
    && (forall i, j :: 0 <= i < j < |s| && s[i] == '=' ==> s[j] == '=')
    && (forall i :: 0 <= i < |s| - 2 ==> s[i] != '=')
  }

  /** Every encoding has that shape. */
  lemma EncodeIsPaddedText(bs: seq<byte>)
    ensures PaddedText(Encode(bs))
  {
    var vs := Sextets(bs);
    var s := Encode(bs);
    forall i | 0 <= i < |vs| ensures InAlphabet(s[i]) && s[i] != '=' {
      ValueOfCharOf(vs[i]);
    }
  }

  /** Round trip: decoding an encoding gives back the bytes. */
  lemma DecodeEncode(bs: seq<byte>)
    ensures Decode(Encode(bs)) == Some(bs)
  {
    var vs := Sextets(bs);
    var s := Encode(bs);
    var body := Symbols(vs);
    EncodeLength(bs);
    SextetsLength(bs);
    assert s == body + Padding(|bs|);
    assert PadLength(s) == |Padding(|bs|)| by {
      if |vs| > 0 {
        assert s[|vs| - 1] == CharOf(vs[|vs| - 1]);
      }
    }
    assert s[..|s| - PadLength(s)] == body;
    ValuesOfSymbols(vs);
    FromSextetsSextets(bs);
  }

  /** The padding a decoded text ends with is the padding its bytes call for. */
  lemma PaddingMatches(s: string, bs: seq<byte>)
    requires |s| % 4 == 0
    requires ValuesOf(s[..|s| - PadLength(s)]).Some?
    requires FromSextets(ValuesOf(s[..|s| - PadLength(s)]).value) == Some(bs)
    ensures Padding(|bs|) == s[|s| - PadLength(s)..]
  {
    var p := PadLength(s);
    var vs := ValuesOf(s[..|s| - p]).value;
    FromSextetsLength(vs);
    var n := |bs|;
    PadCount(|s| / 4, n / 3, p, TailValues(n));
    if p == 2 {
      assert s[|s| - p..] == [s[|s| - 2], s[|s| - 1]];
    } else if p == 1 {
      assert s[|s| - p..] == [s[|s| - 1]];
    }
  }

  /** The arithmetic behind `PaddingMatches`: a multiple of four less at most two `=`
      leaves room for the tail of the last group only in the three expected ways. */
  lemma PadCount(k: nat, q: nat, p: nat, t: nat)
    requires p <= 2 && (t == 0 || t == 2 || t == 3)
    requires 4 * k - p == 4 * q + t
    ensures t == 0 ==> p == 0
    ensures t == 2 ==> p == 2
    ensures t == 3 ==> p == 1
  {
  }

  /** What a successful decode is made of: the symbols before the padding, their
      values, and the bytes of those values. */
  lemma DecodeParts(s: string)
    requires Decode(s).Some?
    ensures |s| % 4 == 0
    ensures ValuesOf(s[..|s| - PadLength(s)]).Some?
    ensures FromSextets(ValuesOf(s[..|s| - PadLength(s)]).value) == Decode(s)
  {
  }

  /** An encoding is its symbols followed by its padding. */
  lemma EncodeParts(bs: seq<byte>, body: string, pad: string)
    requires Symbols(Sextets(bs)) == body && Padding(|bs|) == pad
    ensures Encode(bs) == body + pad
  {
  }

  /** The decoder is canonical: it accepts only encodings, so the text it accepts is
      exactly the encoding of the bytes it returns. */
  lemma EncodeDecode(s: string)
    requires Decode(s).Some?
    ensures Encode(Decode(s).value) == s
  {
    DecodeParts(s);
    var p := PadLength(s);
    var body, pad := s[..|s| - p], s[|s| - p..];
    var vs := ValuesOf(body).value;
    var bs := Decode(s).value;
    SymbolsValuesOf(body);
    SextetsFromSextets(vs);
    PaddingMatches(s, bs);
    EncodeParts(bs, body, pad);
    SplitText(s, p);
  }

  lemma SplitText(s: string, p: nat)
    requires p <= |s|
    ensures s == s[..|s| - p] + s[|s| - p..]
  {
  }

  /** Decoding succeeds on a text exactly when that text is the encoding of the bytes. */
  lemma DecodeIff(s: string, bs: seq<byte>)
    ensures Decode(s) == Some(bs) <==> Encode(bs) == s
  {
    if Decode(s) == Some(bs) {
      EncodeDecode(s);
    }
    if Encode(bs) == s {
      DecodeEncode(bs);
    }
  }
}

=== FILE: bincode.dfy ===
/** The binary packing stage of the wire record. The layout is bincode's default one,
    which this model assumes rather than derives: a string is its UTF-8 length as a
    little-endian `u64` followed by its bytes, and an `Option` is a tag byte 0 (`None`)
    or 1 (`Some`, then the value); any other tag is an error. */
module Bincode {
  import opened Base
  import Utf8

  /** Width of the length prefix. */
  const U64_BYTES: nat := 8

  function Pow256(k: nat): (r: nat)
    ensures r >= 1
  {
    if k == 0 then 1 else 256 * Pow256(k - 1)
  }

  /** The `k` low-order bytes of `n`, least significant first (`n` modulo `256^k`). */
  function LeBytes(n: nat, k: nat): (r: seq<byte>)
    ensures |r| == k
  {
    if k == 0 then [] else [n % 256] + LeBytes(n / 256, k - 1)
  }

  /** The number little-endian bytes spell. */
  function LeValue(bs: seq<byte>): nat
  {
    if bs == [] then 0 else bs[0] + 256 * LeValue(bs[1..])
  }

  /** Reading back a number that fits in `k` bytes gives the number. */
  lemma {:induction false} LeRoundTrip(n: nat, k: nat)
    requires n < Pow256(k)
    ensures LeValue(LeBytes(n, k)) == n
  {
    if k > 0 {
      LeRoundTrip(n / 256, k - 1);
      assert LeBytes(n, k)[1..] == LeBytes(n / 256, k - 1);
    }
  }

  /** A string whose UTF-8 length fits the `u64` prefix. Every string a 64-bit program
      can hold does; the prefix of a longer one would wrap. */
  predicate Fits(s: string)
  {
    |Utf8.Encode(s)| < Pow256(U64_BYTES)
  }

  /** A length-prefixed byte run: the length as a little-endian `u64`, then the bytes. */
  function PutFrame(payload: seq<byte>): seq<byte>
  {
    LeBytes(|payload|, U64_BYTES) + payload
  }

  /** Reads a length-prefixed byte run from the front of `bs`, with the number of bytes
      it took; `None` when the prefix is cut short or the length runs past the end. */
  function GetFrame(bs: seq<byte>): (r: Option<(seq<byte>, nat)>)
    ensures r.Some? ==> U64_BYTES <= r.value.1 <= |bs|
  {
    if |bs| < U64_BYTES then None
    else
      var n := LeValue(bs[..U64_BYTES]);
      if |bs| - U64_BYTES < n then None
      else Some((bs[U64_BYTES..U64_BYTES + n], U64_BYTES + n))
  }

  lemma GetPutFrame(payload: seq<byte>, rest: seq<byte>)
    requires |payload| < Pow256(U64_BYTES)
    ensures GetFrame(PutFrame(payload) + rest) == Some((payload, |PutFrame(payload)|))
  {
    var bs := PutFrame(payload) + rest;
    LeRoundTrip(|payload|, U64_BYTES);
    assert bs[..U64_BYTES] == LeBytes(|payload|, U64_BYTES);
    assert bs[U64_BYTES..U64_BYTES + |payload|] == payload;
  }

  lemma PutGetFrame(bs: seq<byte>)
    requires GetFrame(bs).Some?
    ensures var (p, k) := GetFrame(bs).value; |p| < Pow256(U64_BYTES) && PutFrame(p) == bs[..k]
  {
    var (p, k) := GetFrame(bs).value;
    LeValueBound(bs[..U64_BYTES]);
    LeValueBytes(bs[..U64_BYTES]);
    assert bs[..k] == bs[..U64_BYTES] + p;
  }

  /** A string: its UTF-8 bytes as a length-prefixed run. */
  function PutStr(s: string): seq<byte>
  {
    PutFrame(Utf8.Encode(s))
  }

  /** Reads a string from the front of `bs`, with the number of bytes it took; `None`
      when the prefix is cut short, the length runs past the end, or the bytes are
      not UTF-8. */
  function GetStr(bs: seq<byte>): (r: Option<(string, nat)>)
    ensures r.Some? ==> U64_BYTES <= r.value.1 <= |bs|
  {
    match GetFrame(bs)
    case None => None
    case Some((payload, k)) =>
      match Utf8.Decode(payload)
      case None => None
      case Some(s) => Some((s, k))
  }

  /** A string written in front of anything reads back whole, taking exactly its bytes. */
  lemma GetPutStr(s: string, rest: seq<byte>)
    requires Fits(s)
    ensures GetStr(PutStr(s) + rest) == Some((s, |PutStr(s)|))
  {
    GetPutFrame(Utf8.Encode(s), rest);
    Utf8.DecodeEncode(s);
  }

  /** An optional string: tag byte, then the string when present. */
  function PutOption(o: Option<string>): seq<byte>
  {
    match o
    case None => [0]
    case Some(s) => [1] + PutStr(s)
  }

  /** Reads an optional string; `None` for a missing or unknown tag or a bad string. */
  function GetOption(bs: seq<byte>): (r: Option<(Option<string>, nat)>)
    ensures r.Some? ==> 1 <= r.value.1 <= |bs|
  {
    if bs == [] then None
    else if bs[0] == 0 then Some((None, 1))
    else if bs[0] == 1 then
      match GetStr(bs[1..])
      case None => None
      case Some((s, k)) => Some((Some(s), 1 + k))
    else None
  }

  predicate OptionFits(o: Option<string>)
  {
    o.Some? ==> Fits(o.value)
  }

  lemma GetPutOption(o: Option<string>, rest: seq<byte>)
    requires OptionFits(o)
    ensures GetOption(PutOption(o) + rest) == Some((o, |PutOption(o)|))
  {
    match o
    case None =>
      TagFront(0, [], rest);
    case Some(s) =>
      var p := PutStr(s);
      TagFront(1, p, rest);
      GetPutStr(s, rest);
  }

  /** The tag byte in front of a value, and what follows it. */
  lemma TagFront(t: byte, p: seq<byte>, rest: seq<byte>)
    ensures ([t] + p + rest)[0] == t && ([t] + p + rest)[1..] == p + rest
  {
  }

  /** What the string reader accepts is a written string: the bytes it consumed are
      exactly the encoding of the string it returned. */
  lemma PutGetStr(bs: seq<byte>)
    requires GetStr(bs).Some?
    ensures var (s, k) := GetStr(bs).value; Fits(s) && PutStr(s) == bs[..k]
  {
    var (p, k) := GetFrame(bs).value;
    PutGetFrame(bs);
    Utf8.EncodeDecode(p);
  }

  /** `k` bytes never spell more than `256^k - 1`. */
  lemma {:induction false} LeValueBound(bs: seq<byte>)
    ensures LeValue(bs) < Pow256(|bs|)
  {
    if bs != [] {
      LeValueBound(bs[1..]);
    }
  }

  /** Little-endian bytes are the bytes of their own value. */
  lemma {:induction false} LeValueBytes(bs: seq<byte>)
    ensures LeBytes(LeValue(bs), |bs|) == bs
  {
    if bs != [] {
      var v := LeValue(bs[1..]);
      LeValueBytes(bs[1..]);
      assert (bs[0] + 256 * v) % 256 == bs[0];
      assert (bs[0] + 256 * v) / 256 == v;
    }
  }

  /** A reader never claims more bytes than it was given. */
  ghost predicate Reads<T>(read: seq<byte> -> Option<(T, nat)>)
  {
    forall bs :: read(bs).Some? ==> read(bs).value.1 <= |bs|
  }

  /** Values written one after the other. */
  function PutMany<T>(write: T -> seq<byte>, xs: seq<T>): seq<byte>
  {
    if xs == [] then [] else write(xs[0]) + PutMany(write, xs[1..])
  }

  /** Reads `n` values one after the other, with the total number of bytes taken;
      `None` as soon as one of them does not read. */
  function GetMany<T>(read: seq<byte> -> Option<(T, nat)>, bs: seq<byte>, n: nat): (r: Option<(seq<T>, nat)>)
    requires Reads(read)
    ensures r.Some? ==> |r.value.0| == n && r.value.1 <= |bs|
  {
    if n == 0 then Some(([], 0))
    else
      match read(bs)
      case None => None
      case Some((x, k)) =>
        match GetMany(read, bs[k..], n - 1)
        case None => None
        case Some((more, j)) => Some(([x] + more, k + j))
  }

  /** `write` and `read` agree on the values `fits` admits: a written value reads back
      whole in front of anything. */
  ghost predicate ReadsBack<T(!new)>(read: seq<byte> -> Option<(T, nat)>, write: T -> seq<byte>, fits: T -> bool)
  {
    forall x, rest {:trigger read(write(x) + rest)} :: fits(x) ==> read(write(x) + rest) == Some((x, |write(x)|))
  }

  /** Whatever `read` accepts is an admitted value written over exactly the bytes taken. */
  ghost predicate WritesBack<T>(read: seq<byte> -> Option<(T, nat)>, write: T -> seq<byte>, fits: T -> bool)
    requires Reads(read)
  {
    forall bs :: read(bs).Some? ==>
      fits(read(bs).value.0) && write(read(bs).value.0) == bs[..read(bs).value.1]
  }

  lemma Reassociate(p: seq<byte>, q: seq<byte>, rest: seq<byte>)
    ensures p + q + rest == p + (q + rest)
  {
  }

  lemma DropPrefix(p: seq<byte>, t: seq<byte>)
    ensures (p + t)[|p|..] == t
  {
  }

  lemma Uncons<T>(xs: seq<T>)
    requires xs != []
    ensures [xs[0]] + xs[1..] == xs
  {
  }

  lemma GetManyCons<T>(read: seq<byte> -> Option<(T, nat)>, bs: seq<byte>, n: nat,
                       x: T, k: nat, more: seq<T>, j: nat)
    requires Reads(read) && n > 0
    requires read(bs) == Some((x, k))
    requires k <= |bs| && GetMany(read, bs[k..], n - 1) == Some((more, j))
    ensures GetMany(read, bs, n) == Some(([x] + more, k + j))
  {
  }

  lemma GetPutManyStep<T>(read: seq<byte> -> Option<(T, nat)>, x: T, p: seq<byte>,
                          more: seq<T>, q: seq<byte>, rest: seq<byte>)
    requires Reads(read) && read(p + (q + rest)) == Some((x, |p|))
    requires GetMany(read, q + rest, |more|) == Some((more, |q|))
    ensures GetMany(read, p + (q + rest), |more| + 1) == Some(([x] + more, |p| + |q|))
  {
    DropPrefix(p, q + rest);
    GetManyCons(read, p + (q + rest), |more| + 1, x, |p|, more, |q|);
  }

  lemma ReadsBackAt<T(!new)>(read: seq<byte> -> Option<(T, nat)>, write: T -> seq<byte>,
                             fits: T -> bool, x: T, rest: seq<byte>)
    requires ReadsBack(read, write, fits) && fits(x)
    ensures read(write(x) + rest) == Some((x, |write(x)|))
  {
  }

  lemma TailFits<T>(fits: T -> bool, xs: seq<T>)
    requires xs != [] && forall x :: x in xs ==> fits(x)
    ensures fits(xs[0]) && forall x :: x in xs[1..] ==> fits(x)
  {
    assert forall x :: x in xs[1..] ==> x in xs;
  }

  lemma Regroup<T>(read: seq<byte> -> Option<(T, nat)>, xs: seq<T>, x: T, tl: seq<T>,
                   p: seq<byte>, q: seq<byte>, rest: seq<byte>)
    requires Reads(read) && xs == [x] + tl
    requires GetMany(read, p + (q + rest), |tl| + 1) == Some(([x] + tl, |p| + |q|))
    ensures GetMany(read, p + q + rest, |xs|) == Some((xs, |p + q|))
  {
    Reassociate(p, q, rest);
  }

  lemma {:induction false} GetPutMany<T(!new)>(read: seq<byte> -> Option<(T, nat)>, write: T -> seq<byte>,
                                         fits: T -> bool, xs: seq<T>, rest: seq<byte>)
    requires Reads(read) && ReadsBack(read, write, fits)
    requires forall x :: x in xs ==> fits(x)
    ensures GetMany(read, PutMany(write, xs) + rest, |xs|) == Some((xs, |PutMany(write, xs)|))
  {
    if xs != [] {
      var x, tl := xs[0], xs[1..];
      TailFits(fits, xs);
      GetPutMany(read, write, fits, tl, rest);
      var p, q := write(x), PutMany(write, tl);
      ReadsBackAt(read, write, fits, x, q + rest);
      GetPutManyStep(read, x, p, tl, q, rest);
      Uncons(xs);
      Regroup(read, xs, x, tl, p, q, rest);
      PutManyUncons(write, xs);
    }
  }

  lemma WritesBackAt<T>(read: seq<byte> -> Option<(T, nat)>, write: T -> seq<byte>,
                        fits: T -> bool, bs: seq<byte>)
    requires Reads(read) && WritesBack(read, write, fits) && read(bs).Some?
    ensures fits(read(bs).value.0) && write(read(bs).value.0) == bs[..read(bs).value.1]
  {
  }

  lemma FitsCons<T>(fits: T -> bool, x: T, more: seq<T>)
    requires fits(x) && forall i :: 0 <= i < |more| ==> fits(more[i])
    ensures forall i :: 0 <= i < |[x] + more| ==> fits(([x] + more)[i])
  {
  }

  lemma {:induction false} PutGetMany<T>(read: seq<byte> -> Option<(T, nat)>, write: T -> seq<byte>,
                                         fits: T -> bool, bs: seq<byte>, n: nat)
    requires Reads(read) && WritesBack(read, write, fits)
    requires GetMany(read, bs, n).Some?
    ensures var (xs, k) := GetMany(read, bs, n).value;
      (forall i :: 0 <= i < |xs| ==> fits(xs[i])) && PutMany(write, xs) == bs[..k]
  {
    if n > 0 {
      var (x, k) := read(bs).value;
      var (more, j) := GetMany(read, bs[k..], n - 1).value;
      GetManyCons(read, bs, n, x, k, more, j);
      WritesBackAt(read, write, fits, bs);
      PutGetMany(read, write, fits, bs[k..], n - 1);
      FitsCons(fits, x, more);
      PutManyCons(write, x, more);
      SplitPrefix(bs, k, j);
    }
  }

  lemma PutManyUncons<T>(write: T -> seq<byte>, xs: seq<T>)
    requires xs != []
    ensures PutMany(write, xs) == write(xs[0]) + PutMany(write, xs[1..])
  {
  }

  lemma PutManyCons<T>(write: T -> seq<byte>, x: T, more: seq<T>)
    ensures PutMany(write, [x] + more) == write(x) + PutMany(write, more)
  {
    assert ([x] + more)[1..] == more;
  }

  /** Four values written one after the other are their writes joined. */
  lemma PutManyFour<T>(write: T -> seq<byte>, a: T, b: T, c: T, d: T)
    ensures PutMany(write, [a, b, c, d]) == write(a) + write(b) + write(c) + write(d)
  {
    PutManyCons(write, d, []);
    PutManyCons(write, c, [d]);
    PutManyCons(write, b, [c, d]);
    PutManyCons(write, a, [b, c, d]);
    assert [a] + [b, c, d] == [a, b, c, d];
  }

  lemma SplitPrefix(bs: seq<byte>, k: nat, j: nat)
    requires k + j <= |bs|
    ensures bs[..k + j] == bs[..k] + bs[k..][..j]
  {
  }

  /** Several strings one after the other. */
  function PutStrs(ss: seq<string>): seq<byte>
  {
    PutMany(PutStr, ss)
  }

  /** Reads `n` strings one after the other, with the total number of bytes taken. */
  function GetStrs(bs: seq<byte>, n: nat): (r: Option<(seq<string>, nat)>)
    ensures r.Some? ==> |r.value.0| == n && r.value.1 <= |bs|
  {
    GetMany(GetStr, bs, n)
  }

  lemma GetPutStrs(ss: seq<string>, rest: seq<byte>)
    requires forall i :: 0 <= i < |ss| ==> Fits(ss[i])
    ensures GetStrs(PutStrs(ss) + rest, |ss|) == Some((ss, |PutStrs(ss)|))
  {
    forall s, more | Fits(s)
      ensures GetStr(PutStr(s) + more) == Some((s, |PutStr(s)|))
    {
      GetPutStr(s, more);
    }
    GetPutMany(GetStr, PutStr, Fits, ss, rest);
  }

  lemma PutGetStrs(bs: seq<byte>, n: nat)
    requires GetStrs(bs, n).Some?
    ensures var (ss, k) := GetStrs(bs, n).value;
      (forall i :: 0 <= i < |ss| ==> Fits(ss[i])) && PutStrs(ss) == bs[..k]
  {
    forall b | GetStr(b).Some?
      ensures Fits(GetStr(b).value.0) && PutStr(GetStr(b).value.0) == b[..GetStr(b).value.1]
    {
      PutGetStr(b);
    }
    PutGetMany(GetStr, PutStr, Fits, bs, n);
  }


  /** What the optional-string reader accepts is a written optional string. */
  lemma PutGetOption(bs: seq<byte>)
    requires GetOption(bs).Some?
    ensures var (o, k) := GetOption(bs).value; OptionFits(o) && PutOption(o) == bs[..k]
  {
    if bs[0] == 1 {
      PutGetStr(bs[1..]);
      var (_, k) := GetStr(bs[1..]).value;
      TagPrefix(bs, k);
    } else {
      TagPrefix(bs, 0);
    }
  }

  /** The first `1 + k` bytes are the tag and the `k` bytes after it. */
  lemma TagPrefix(bs: seq<byte>, k: nat)
    requires 1 + k <= |bs|
    ensures bs[..1 + k] == [bs[0]] + bs[1..][..k]
  {
  }
}

=== FILE: console_logger.dfy ===
/** The console sink (console_logger.rs): a maximum level read from `RUST_LOG`, and
    output routed by severity to standard error or standard output. */
module ConsoleLogger {
  import opened Base
  import opened Levels
  import opened LogRecord
  import LogFacade

  datatype Config = Config(maxLogLevel: Level)

  /** `ConsoleLogger`: only the maximum level it was built with. */
  datatype Logger = Logger(maxLogLevel: Level)

  /** What the process has written to its two standard streams. */
  datatype Console = Console(stdout: string, stderr: string)

  /** The value of `RUST_LOG` that names each level. */
  function LevelName(l: Level): string
  {
    match l
    case Error => "error"
    case Warn => "warn"
    case Info => "info"
    case Debug => "debug"
    case Trace => "trace"
  }

  predicate IsLevelName(s: string)
  {
    exists l :: LevelName(l) == s
  }

  /** `ConsoleLoggerConfig::default`'s reading of `RUST_LOG`: an exact, case-sensitive
      level name selects that level; anything else, set or not, selects `Info`. */
  function ParseRustLog(v: Option<string>): (l: Level)
    ensures forall x :: v == Some(LevelName(x)) ==> l == x
    ensures v.None? || !IsLevelName(v.value) ==> l == Info
  {
    match v
    case Some(s) =>
      if s == "error" then assert LevelName(Error) == s; Error
      else if s == "warn" then assert LevelName(Warn) == s; Warn
      else if s == "info" then assert LevelName(Info) == s; Info
      else if s == "debug" then assert LevelName(Debug) == s; Debug
      else if s == "trace" then assert LevelName(Trace) == s; Trace
      else Info
    case None => Info
  }

  /** `ConsoleLoggerConfig::default`. */
  function DefaultConfig(rustLog: Option<string>): Config
  {
    Config(ParseRustLog(rustLog))
  }

  /** Level names are distinct, so printing a level and parsing it back is the identity. */
  lemma ParseLevelName(l: Level)
    ensures ParseRustLog(Some(LevelName(l))) == l
    ensures forall m :: LevelName(m) == LevelName(l) ==> m == l
  {
  }

  /** `enabled`: at least as severe as the configured maximum. */
  function IsEnabled(lg: Logger, level: Level): (b: bool)
    ensures b <==> level in LevelsUpTo(lg.maxLogLevel)
  {
    EnabledIffListed(level, lg.maxLogLevel);
    Enabled(level, lg.maxLogLevel)
  }

  /** `log`: the formatted line goes to standard error for `Error` and to standard
      output for every other level; the logger's own `enabled` is not consulted. */
  function Log(lg: Logger, c: Console, r: Record): (c': Console)
    ensures r.level == Error ==> c'.stdout == c.stdout && c'.stderr == c.stderr + FormatLog(r)
    ensures r.level != Error ==> c'.stderr == c.stderr && c'.stdout == c.stdout + FormatLog(r)
    ensures |c'.stdout| + |c'.stderr| == |c.stdout| + |c.stderr| + |r.args| + 1
  {
    var line := FormatLog(r);
    if r.level == Error then c.(stderr := c.stderr + line) else c.(stdout := c.stdout + line)
  }

  /** `flush`: nothing to do, the streams are left as they are. */
  function Flush(lg: Logger, c: Console): (c': Console)
    ensures c' == c
  {
    c
  }

  /** `ConsoleLogger::init`: installs the logger and, only when that succeeds, sets the
      global maximum to the configured level. */
  function Init(f: LogFacade.Facade<Logger>, config: Config): (r: (LogFacade.Facade<Logger>, bool))
    ensures r.1 <==> f.logger.None?
    ensures r.1 ==> (r.0.logger == Some(Logger(config.maxLogLevel))
      && r.0.maxLevel == Some(config.maxLogLevel))
    ensures !r.1 ==> r.0 == f
  {
    LogFacade.Register(f, Logger(config.maxLogLevel), config.maxLogLevel)
  }

  /** A logging macro: the global maximum is tested, then the installed logger writes. */
  function Emit(f: LogFacade.Facade<Logger>, c: Console, r: Record): (c': Console)
    ensures f.logger.None? ==> c' == c
    ensures f.logger.Some? ==> (c' != c <==> LogFacade.Passes(f, r.level))
    ensures c' != c ==> c' == Log(f.logger.value, c, r)
  {
    if LogFacade.Passes(f, r.level) && f.logger.Some? then Log(f.logger.value, c, r) else c
  }

  /** Since `log` writes every record it is given, filtering is the global maximum's job:
      after a successful `init`, a record reaches the console exactly when the logger
      is enabled for its level, and then on the stream its severity selects. */
  lemma EmitAfterInit(f: LogFacade.Facade<Logger>, config: Config, c: Console, r: Record)
    requires f.logger.None?
    ensures var c' := Emit(Init(f, config).0, c, r);
      && (Enabled(r.level, config.maxLogLevel) ==> c' == Log(Logger(config.maxLogLevel), c, r))
      && (!Enabled(r.level, config.maxLogLevel) ==> c' == c)
  {
  }

  /** Without a successful `init`, nothing reaches the console. */
  lemma EmitBeforeInit(c: Console, r: Record)
    ensures Emit(LogFacade.Initial<Logger>(), c, r) == c
  {
  }
}

=== FILE: file_logger.dfy ===
/** The file sink (file_logger.rs): a front end that filters by level and hands lines
    to a bounded channel, and a background worker that appends them to a buffered
    file, rotating it to `<path>.old` once it holds more than `max_count` lines. */
module FileLogger {
  import opened Base
  import opened Levels
  import opened LogRecord
  import opened Mailbox
  import LogFacade

  /** `bounded(4096)`. */
  const MAILBOX_CAPACITY: nat := 4096

  /** `max_line_count` in `FileLoggerConfig::new`. */
  const DEFAULT_MAX_LINE_COUNT: nat := 100000

  datatype Config = Config(maxLogLevel: Level, path: string, maxLineCount: nat)

  /** `FileLoggerConfig::new`: level `Info` and 100000 lines per file. */
  function NewConfig(path: string): (c: Config)
    ensures c.path == path
    ensures c.maxLogLevel == Info && c.maxLineCount == DEFAULT_MAX_LINE_COUNT
  {
    Config(Info, path, DEFAULT_MAX_LINE_COUNT)
  }

  /** Where a rotated file is copied to. */
  function OldPath(path: string): (p: string)
    ensures |p| == |path| + 4 && p[..|path|] == path && p[|path|..] == ".old"
  {
    path + ".old"
  }

  /** The backup never overwrites the log file itself, and distinct logs have
      distinct backups. */
  lemma OldPathDistinct(a: string, b: string)
    ensures OldPath(a) != a
    ensures OldPath(a) == OldPath(b) <==> a == b
  {
    if OldPath(a) == OldPath(b) {
      assert a == OldPath(a)[..|a|];
      assert b == OldPath(b)[..|b|];
    }
  }

  // ---------------------------------------------------------------------------
  // The background worker

  /** `FileLoggerBackgroundService`. The active file is what has reached the disk
      (`flushed`) followed by what still sits in the `BufWriter` (`buffered`); `backup`
      is the content of `<path>.old`; `count` is `log_message_count` and `maxCount`
      is `max_count`. A panicking `expect` ends the thread: `halted`. */
  datatype Worker = Worker(
    buffered: seq<string>,
    flushed: seq<string>,
    backup: Option<seq<string>>,
    count: nat,
    maxCount: nat,
    halted: bool)
  {
    /** The lines of the active file, in the order they were written. */
    function Content(): seq<string>
    {
      flushed + buffered
    }

    /** The counter counts the lines of the active file, and never passes the limit by
        more than one. */
    predicate Valid()
    {
      count == |Content()| && count <= maxCount + 1
    }
  }

  /** Which step of handling a line fails, if it is reached: one of the flushes before
      the copy, the truncating `File::create`, or the `write_all`. */
  datatype Fault = NoFault | FlushFault | CreateFault | WriteFault

  /** What the worker's `recv` yields. `copyOk` says whether the best-effort copy to
      `<path>.old` would succeed. */
  datatype Event =
    | Write(line: string, copyOk: bool, fault: Fault)
    | FlushNow(flushOk: bool)
    | RecvFailed

  /** Rotation: flush everything, copy the file to `<path>.old` (a failure is ignored),
      truncate it and reset the counter. */
  function Rotate(w: Worker, copyOk: bool, fault: Fault): Worker
  {
    if fault == FlushFault then w.(halted := true)
    else
      var content := w.Content();
      var backup := if copyOk then Some(content) else w.backup;
      if fault == CreateFault then w.(buffered := [], flushed := content, backup := backup, halted := true)
      else w.(buffered := [], flushed := [], backup := backup, count := 0)
  }

  /** `write_all` into the `BufWriter`, then `log_message_count += 1`. */
  function Append(w: Worker, line: string, fault: Fault): Worker
  {
    if fault == WriteFault then w.(halted := true)
    else w.(buffered := w.buffered + [line], count := w.count + 1)
  }

  /** One turn of `run`'s loop. */
  function Step(w: Worker, ev: Event): (r: Worker)
    ensures r.maxCount == w.maxCount
    ensures w.halted ==> r == w
    ensures w.Valid() ==> r.Valid()
    // a write that goes through: rotation first exactly when the counter is over the limit
    ensures !w.halted && ev.Write? && !r.halted ==>
      && r.Content() == (if w.count > w.maxCount then [] else w.Content()) + [ev.line]
      && r.count == (if w.count > w.maxCount then 1 else w.count + 1)
    // rotation copies the whole prior file, flushed and buffered alike, unless the copy fails
    ensures !w.halted && ev.Write? && w.count > w.maxCount && ev.fault != FlushFault ==>
      r.backup == (if ev.copyOk then Some(w.Content()) else w.backup)
    // without rotation `<path>.old` is untouched
    ensures !ev.Write? || w.count <= w.maxCount ==> r.backup == w.backup
    // a flush moves the buffer to disk and changes nothing visible
    ensures ev.FlushNow? ==> r.count == w.count && r.Content() == w.Content() && r.backup == w.backup
    ensures ev.FlushNow? && ev.flushOk && !w.halted ==> r.buffered == [] && !r.halted
    // a running worker halts exactly when a step it reaches fails: the `recv`, the
    // flush, the `write_all`, or, when rotating, a flush before the copy or the create
    ensures !w.halted ==>
      (r.halted <==>
        || ev.RecvFailed?
        || (ev.FlushNow? && !ev.flushOk)
        || (ev.Write? && ev.fault == WriteFault)
        || (ev.Write? && w.count > w.maxCount && ev.fault != NoFault))
  {
    if w.halted then w
    else
      match ev
      case RecvFailed => w.(halted := true)
      case FlushNow(ok) =>
        if ok then w.(buffered := [], flushed := w.Content()) else w.(halted := true)
      case Write(line, copyOk, fault) =>
        var w1 := if w.count > w.maxCount then Rotate(w, copyOk, fault) else w;
        if w1.halted then w1 else Append(w1, line, fault)
  }

  /** A successful write lowers (or keeps) the counter exactly when it rotated. */
  lemma RotatesIffOverLimit(w: Worker, line: string, copyOk: bool)
    requires !w.halted
    ensures var r := Step(w, Write(line, copyOk, NoFault));
      !r.halted && (r.count <= w.count <==> w.count > w.maxCount)
  {
  }

  /** A rotating write leaves exactly the new line, and `<path>.old` gets the
      `max_count + 1` lines written since the previous rotation. */
  lemma RotationKeepsFullFile(w: Worker, line: string)
    requires w.Valid() && !w.halted && w.count > w.maxCount
    ensures var r := Step(w, Write(line, true, NoFault));
      && r.Content() == [line] && r.count == 1
      && r.backup == Some(w.Content()) && |w.Content()| == w.maxCount + 1
  {
  }

  /** The worker after a sequence of events. */
  function Run(w: Worker, evs: seq<Event>): (r: Worker)
    ensures r.maxCount == w.maxCount
    ensures w.Valid() ==> r.Valid()
    decreases |evs|
  {
    if evs == [] then w else Step(Run(w, evs[..|evs| - 1]), evs[|evs| - 1])
  }

  /** Every event is a write or an explicit flush, and every step of it succeeds. */
  predicate CleanWrites(evs: seq<Event>)
  {
    forall i :: 0 <= i < |evs| ==> Clean(evs[i])
  }

  predicate Clean(ev: Event)
  {
    (ev.Write? && ev.fault == NoFault) || ev == FlushNow(true)
  }

  /** Every copy to `<path>.old` would succeed. */
  predicate CopiesSucceed(evs: seq<Event>)
  {
    forall i :: 0 <= i < |evs| ==> CopyOk(evs[i])
  }

  predicate CopyOk(ev: Event)
  {
    ev.Write? ==> ev.copyOk
  }

  /** The line an event carries: one for a write, none otherwise. */
  function LineOf(ev: Event): (ls: seq<string>)
    ensures |ls| <= 1
  {
    if ev.Write? then [ev.line] else []
  }

  /** The lines the writes of a sequence of events carry, in order. */
  function Lines(evs: seq<Event>): (ls: seq<string>)
    ensures |ls| <= |evs|
    decreases |evs|
  {
    if evs == [] then [] else Lines(evs[..|evs| - 1]) + LineOf(evs[|evs| - 1])
  }

  /** `a` is a whole number of blocks of `m` lines. */
  predicate MultipleOf(a: nat, m: nat)
    decreases a
  {
    a == 0 || (0 < m <= a && MultipleOf(a - m, m))
  }

  /** The facts about a run of writes that carry over from one event to the next,
      given the lines written so far, `ls`, and whether every copy so far succeeded:
      the file is a whole suffix of `ls`, starting after a whole number of blocks of
      `max_count + 1` lines, and after a rotation with successful copies `<path>.old`
      holds the block just before it. */
  predicate FileHolds(w: Worker, ls: seq<string>, copies: bool, r: Worker)
  {
    var n := |ls|;
    && !r.halted && r.Valid() && r.maxCount == w.maxCount
    && r.count <= n && (n > 0 ==> 1 <= r.count)
    && MultipleOf(n - r.count, w.maxCount + 1)
    && r.Content() == ls[n - r.count..]
    && (n - r.count == 0 ==> r.backup == w.backup)
    && (n - r.count > 0 && copies ==>
          n - r.count >= w.maxCount + 1
          && r.backup == Some(ls[n - r.count - (w.maxCount + 1)..n - r.count]))
  }

  /** `FileHolds` for the lines of a run of events. */
  predicate WritesInvariant(w: Worker, evs: seq<Event>, r: Worker)
  {
    FileHolds(w, Lines(evs), CopiesSucceed(evs), r)
  }

  /** The facts about all events hold of all but the last. */
  lemma CleanFront(evs: seq<Event>)
    requires evs != []
    ensures CleanWrites(evs) ==> CleanWrites(evs[..|evs| - 1]) && Clean(evs[|evs| - 1])
    ensures CopiesSucceed(evs) <==> CopiesSucceed(evs[..|evs| - 1]) && CopyOk(evs[|evs| - 1])
  {
    var pre := evs[..|evs| - 1];
    assert forall i :: 0 <= i < |pre| ==> pre[i] == evs[i];
  }

  /** The lines of one more event are the earlier lines and then its own. */
  lemma LinesSnoc(pre: seq<Event>, e: Event)
    ensures Lines(pre + [e]) == Lines(pre) + LineOf(e)
  {
    assert (pre + [e])[..|pre|] == pre;
  }

  /** Slices of a sequence with one more element at the end. */
  lemma SnocSlices<T>(s: seq<T>, x: T, a: nat, b: nat)
    requires a <= b <= |s|
    ensures (s + [x])[a..] == s[a..] + [x]
    ensures (s + [x])[a..b] == s[a..b]
    ensures (s + [x])[|s|..] == [x]
  {
  }

  /** One more block keeps a whole number of blocks. */
  lemma MultipleStep(a: nat, m: nat)
    requires MultipleOf(a, m) && m > 0
    ensures MultipleOf(a + m, m)
  {
  }

  /** A write that rotates keeps `FileHolds`. */
  lemma RotatingStep(w: Worker, ls: seq<string>, copies: bool, r0: Worker, e: Event)
    requires FileHolds(w, ls, copies, r0) && r0.count > w.maxCount
    requires e.Write? && e.fault == NoFault
    ensures FileHolds(w, ls + [e.line], copies && e.copyOk, Step(r0, e))
  {
    var m := |ls|;
    var start0 := m - r0.count;
    var r := Step(r0, e);
    assert r.count == 1 && r.Content() == [e.line] && !r.halted && r.Valid();
    assert r0.count == w.maxCount + 1;
    SnocSlices(ls, e.line, start0, m);
    MultipleStep(start0, w.maxCount + 1);
    if copies && e.copyOk {
      assert r.backup == Some(r0.Content());
    }
  }

  /** A write that does not rotate keeps `FileHolds`. */
  lemma AppendingStep(w: Worker, ls: seq<string>, copies: bool, r0: Worker, e: Event)
    requires FileHolds(w, ls, copies, r0) && r0.count <= w.maxCount
    requires e.Write? && e.fault == NoFault
    ensures FileHolds(w, ls + [e.line], copies && e.copyOk, Step(r0, e))
  {
    var start0 := |ls| - r0.count;
    var r := Step(r0, e);
    assert r.count == r0.count + 1 && r.Content() == r0.Content() + [e.line];
    assert r.backup == r0.backup && !r.halted;
    SnocSlices(ls, e.line, start0, start0);
    if start0 > 0 && copies {
      assert start0 >= w.maxCount + 1;
      SnocSlices(ls, e.line, start0 - (w.maxCount + 1), start0);
    }
  }

  /** A successful flush keeps `FileHolds`: it moves the buffer to disk and changes no
      line, no count and not `<path>.old`. */
  lemma FlushingStep(w: Worker, ls: seq<string>, copies: bool, r0: Worker)
    requires FileHolds(w, ls, copies, r0)
    ensures FileHolds(w, ls, copies, Step(r0, FlushNow(true)))
  {
    var r := Step(r0, FlushNow(true));
    assert r.Content() == r0.Content() && r.count == r0.count && r.backup == r0.backup;
  }

  /** One more clean event keeps `WritesInvariant`. */
  lemma WritesInvariantStep(w: Worker, pre: seq<Event>, r0: Worker, e: Event)
    requires WritesInvariant(w, pre, r0) && Clean(e)
    requires CopiesSucceed(pre + [e]) <==> CopiesSucceed(pre) && CopyOk(e)
    ensures WritesInvariant(w, pre + [e], Step(r0, e))
  {
    LinesSnoc(pre, e);
    if e.FlushNow? {
      assert Lines(pre + [e]) == Lines(pre);
      FlushingStep(w, Lines(pre), CopiesSucceed(pre), r0);
    } else if r0.count > w.maxCount {
      RotatingStep(w, Lines(pre), CopiesSucceed(pre), r0, e);
    } else {
      AppendingStep(w, Lines(pre), CopiesSucceed(pre), r0, e);
    }
  }

  /** A non-empty sequence is its front followed by its last element. */
  lemma LastSplit<T>(s: seq<T>)
    requires s != []
    ensures s == s[..|s| - 1] + [s[|s| - 1]]
  {
  }

  /** From an empty file, fault-free writes and successful flushes keep
      `WritesInvariant`. */
  lemma {:induction false} RunWrites(w: Worker, evs: seq<Event>)
    requires w.Valid() && w.Content() == [] && !w.halted
    requires CleanWrites(evs)
    ensures WritesInvariant(w, evs, Run(w, evs))
    decreases |evs|
  {
    if evs != [] {
      var n := |evs|;
      var pre, e := evs[..n - 1], evs[n - 1];
      CleanFront(evs);
      RunWrites(w, pre);
      LastSplit(evs);
      WritesInvariantStep(w, pre, Run(w, pre), e);
    }
  }

  /** With at most `max_count + 1` lines written, whatever the flushes in between,
      there is no rotation: the file holds every line in arrival order and
      `<path>.old` is untouched. */
  lemma NoRotationUpToLimit(w: Worker, evs: seq<Event>)
    requires w.Valid() && w.Content() == [] && !w.halted
    requires CleanWrites(evs) && |Lines(evs)| <= w.maxCount + 1
    ensures Run(w, evs).Content() == Lines(evs)
    ensures Run(w, evs).count == |Lines(evs)|
    ensures Run(w, evs).backup == w.backup
  {
    RunWrites(w, evs);
    var r := Run(w, evs);
    assert Lines(evs)[0..] == Lines(evs);
    var start := |Lines(evs)| - r.count;
    assert start < w.maxCount + 1;
  }

  // ---------------------------------------------------------------------------
  // The front end

  /** `FileLogger`: its maximum level, next to the sending end of the channel. */
  datatype Logger = Logger(maxLogLevel: Level)

  /** `enabled`: at least as severe as the configured maximum. */
  function IsEnabled(lg: Logger, level: Level): (b: bool)
    ensures b <==> level in LevelsUpTo(lg.maxLogLevel)
  {
    EnabledIffListed(level, lg.maxLogLevel);
    Enabled(level, lg.maxLogLevel)
  }

  /** `log`: a filtered record is not sent; otherwise the formatted line is offered to
      the channel without waiting, and a full or disconnected channel drops it. */
  function Log(lg: Logger, mb: Mailbox<BackgroundLoggerMessage>, r: Record)
    : (res: (Mailbox<BackgroundLoggerMessage>, Delivery))
    requires mb.Valid()
    ensures res.0.Valid() && res.0.capacity == mb.capacity && res.0.connected == mb.connected
    ensures res.1 == Filtered <==> !Enabled(r.level, lg.maxLogLevel)
    ensures res.1 == Queued <==> Enabled(r.level, lg.maxLogLevel) && HasRoom(mb)
    ensures res.1 == Dropped <==> Enabled(r.level, lg.maxLogLevel) && !HasRoom(mb)
    ensures res.1 == Queued ==> res.0.queue == mb.queue + [Text(FormatLog(r))]
    ensures res.1 != Queued ==> res.0 == mb
  {
    if !IsEnabled(lg, r.level) then (mb, Filtered) else Offer(mb, Text(FormatLog(r)))
  }

  /** `flush`: offers a flush request to the channel; a full or disconnected channel
      drops it. */
  function Flush(lg: Logger, mb: Mailbox<BackgroundLoggerMessage>)
    : (res: (Mailbox<BackgroundLoggerMessage>, Delivery))
    requires mb.Valid()
    ensures res.0.Valid() && res.0.capacity == mb.capacity && res.0.connected == mb.connected
    ensures res.1 == Queued <==> HasRoom(mb)
    ensures res.1 == Queued ==> res.0.queue == mb.queue + [BackgroundLoggerMessage.Flush]
    ensures res.1 != Queued ==> res.0 == mb
  {
    Offer(mb, BackgroundLoggerMessage.Flush)
  }

  /** The channel as the front end finds it: the receiving end lives in the worker's
      thread, and the panic that halts the worker drops it. */
  function SenderView(w: Worker, mb: Mailbox<BackgroundLoggerMessage>): (r: Mailbox<BackgroundLoggerMessage>)
    requires mb.Valid()
    ensures r.Valid() && r.queue == mb.queue && r.capacity == mb.capacity
    ensures r.connected <==> mb.connected && !w.halted
  {
    if w.halted then Disconnect(mb) else mb
  }

  /** Once the worker has halted, every record and every flush request is dropped,
      however empty the channel. */
  lemma HaltedWorkerDropsAll(lg: Logger, w: Worker, mb: Mailbox<BackgroundLoggerMessage>, r: Record)
    requires mb.Valid() && w.halted
    ensures Log(lg, SenderView(w, mb), r).1 != Queued
    ensures Log(lg, SenderView(w, mb), r).0 == SenderView(w, mb)
    ensures Flush(lg, SenderView(w, mb)).1 == Dropped
    ensures Flush(lg, SenderView(w, mb)).0 == SenderView(w, mb)
  {
  }

  /** What `FileLogger::init` leaves behind. */
  datatype Start =
    | Panicked
    | NotRegistered
    | Started(facade: LogFacade.Facade<Logger>, mailbox: Mailbox<BackgroundLoggerMessage>, worker: Worker)

  /** `FileLogger::init`: the channel and the truncated log file are made first (a
      failed create panics); then the logger is registered, and only if that succeeds
      is the worker started, on an empty file with the counter at 0. `priorOld` is
      whatever `<path>.old` already held. */
  function Init(f: LogFacade.Facade<Logger>, config: Config, createOk: bool, priorOld: Option<seq<string>>)
    : (s: Start)
    ensures s.Panicked? <==> !createOk
    ensures s.Started? <==> createOk && f.logger.None?
    ensures s.Started? ==>
      && s.facade.logger == Some(Logger(config.maxLogLevel))
      && s.facade.maxLevel == Some(config.maxLogLevel)
      && s.mailbox.Valid() && s.mailbox.queue == [] && s.mailbox.capacity == MAILBOX_CAPACITY
      && s.mailbox.connected
      && s.worker.Valid() && s.worker.Content() == [] && !s.worker.halted
      && s.worker.maxCount == config.maxLineCount && s.worker.backup == priorOld
  {
    if !createOk then Panicked
    else
      var mb := Bounded<BackgroundLoggerMessage>(MAILBOX_CAPACITY);
      var worker := Worker([], [], priorOld, 0, config.maxLineCount, false);
      var (f1, ok) := LogFacade.Register(f, Logger(config.maxLogLevel), config.maxLogLevel);
      if ok then Started(f1, mb, worker) else NotRegistered
  }
}

=== FILE: levels.dfy ===
/** The severity levels of the `log` crate and the filter every sink applies. */
module Levels {

  /** Severities, most severe first. */
  datatype Level = Error | Warn | Info | Debug | Trace

  /** The discriminant the `log` crate gives each level: 1 for `Error` up to 5 for `Trace`. */
  function Rank(l: Level): nat
  {
    match l
    case Error => 1
    case Warn => 2
    case Info => 3
    case Debug => 4
    case Trace => 5
  }

  /** The `<=` of `log::Level`: `a <= b` when `a` is at least as severe as `b`. */
  predicate Le(a: Level, b: Level)
  {
    Rank(a) <= Rank(b)
  }

  /** The `enabled` test every logger shares: `level <= max_log_level`. */
  predicate Enabled(level: Level, max: Level)
  {
    Le(level, max)
  }

  /** Reference definition: the levels a maximum lets through, listed by hand. */
  function LevelsUpTo(max: Level): set<Level>
  {
    match max
    case Error => {Error}
    case Warn => {Error, Warn}
    case Info => {Error, Warn, Info}
    case Debug => {Error, Warn, Info, Debug}
    case Trace => {Error, Warn, Info, Debug, Trace}
  }

  /** The filter lets exactly the listed levels through. */
  lemma EnabledIffListed(level: Level, max: Level)
    ensures Enabled(level, max) <==> level in LevelsUpTo(max)
  {
  }
}

=== FILE: log_facade.dfy ===
/** The global registration point of the `log` crate that every logger's `init` goes
    through: one boxed logger, set at most once, and a global maximum level that the
    logging macros test before handing a record to that logger. */
module LogFacade {
  import opened Base
  import opened Levels

  /** `maxLevel` is the crate's `LevelFilter`, with `None` standing for `Off`. */
  datatype Facade<L> = Facade(logger: Option<L>, maxLevel: Option<Level>)

  /** The state before any `init`: no logger and the filter at `Off`. */
  function Initial<L>(): Facade<L>
  {
    Facade(None, None)
  }

  /** `set_boxed_logger(..).map(|()| set_max_level(max))`: succeeds only while no
      logger is installed, and only then sets the global maximum; a failed call
      changes nothing. */
  function Register<L>(f: Facade<L>, logger: L, max: Level): (r: (Facade<L>, bool))
    ensures r.1 <==> f.logger.None?
    ensures r.1 ==> r.0.logger == Some(logger) && r.0.maxLevel == Some(max)
    ensures !r.1 ==> r.0 == f
  {
    if f.logger.None? then (Facade(Some(logger), Some(max)), true) else (f, false)
  }

  /** The test the logging macros make before calling the installed logger's `log`:
      the record's level is at most the global maximum. */
  predicate Passes<L>(f: Facade<L>, level: Level)
  {
    f.maxLevel.Some? && Le(level, f.maxLevel.value)
  }

  /** A logger is installed once: after a successful registration every later one
      fails and leaves the first logger and its maximum in place. */
  lemma RegisterOnce<L>(f: Facade<L>, a: L, b: L, ma: Level, mb: Level)
    requires f.logger.None?
    ensures var (f1, ok1) := Register(f, a, ma);
      var (f2, ok2) := Register(f1, b, mb);
      ok1 && !ok2 && f2.logger == Some(a) && f2.maxLevel == Some(ma)
  {
  }

  /** After registering with maximum `max`, the macros let a level through exactly when
      the logger's own `enabled` test would. */
  lemma PassesIffEnabled<L>(f: Facade<L>, logger: L, max: Level, level: Level)
    requires f.logger.None?
    ensures Passes(Register(f, logger, max).0, level) <==> Enabled(level, max)
  {
  }
}

=== FILE: log_record.dfy ===
/** The record handed to a logger and the messages its worker receives (lib.rs). */
module LogRecord {
  import opened Levels

  /** A `log::Record` reduced to what the loggers read: its level and its rendered arguments. */
  datatype Record = Record(level: Level, args: string)

  /** `BackgroundLoggerMessage`: a rendered log line, or a request to flush. */
  datatype BackgroundLoggerMessage = Text(line: string) | Flush

  /** `format_log`: the rendered arguments followed by exactly one newline. */
  function FormatLog(r: Record): (s: string)
    ensures |s| == |r.args| + 1
    ensures s[..|r.args|] == r.args
    ensures s[|s| - 1] == '\n'
  {
    r.args + "\n"
  }

  /** Removing the final character of a formatted line gives back the arguments, so
      distinct arguments never render to the same line. */
  lemma FormatLogInjective(a: Record, b: Record)
    ensures FormatLog(a) == FormatLog(b) <==> a.args == b.args
  {
    if FormatLog(a) == FormatLog(b) {
      assert a.args == FormatLog(a)[..|a.args|];
      assert b.args == FormatLog(b)[..|b.args|];
    }
  }
}

=== FILE: mailbox.dfy ===
/** The bounded channel between the loggers and their background workers
    (`crossbeam::channel::bounded`), as a sequential FIFO of fixed capacity. */
module Mailbox {
  import opened Base

  /** `connected` says whether the receiving end still exists: the worker holds it, and
      it is dropped when the worker's thread ends. */
  datatype Mailbox<T> = Mailbox(queue: seq<T>, capacity: nat, connected: bool) {
    /** The queue never holds more than the capacity. */
    predicate Valid()
    {
      |queue| <= capacity
    }
  }

  /** `bounded(capacity)`: a fresh, empty channel whose receiver is alive. */
  function Bounded<T>(capacity: nat): (m: Mailbox<T>)
    ensures m.Valid() && m.queue == [] && m.capacity == capacity && m.connected
  {
    Mailbox([], capacity, true)
  }

  /** Dropping the receiving end: the messages still queued are never received. */
  function Disconnect<T>(m: Mailbox<T>): (r: Mailbox<T>)
    ensures r.Valid() <==> m.Valid()
    ensures r.queue == m.queue && r.capacity == m.capacity && !r.connected
  {
    m.(connected := false)
  }

  /** How a `try_send` ends: `TrySendError::Full` or `TrySendError::Disconnected`. */
  datatype SendResult = Sent | Full | Disconnected

  /** `try_send`: never waits. A channel whose receiver is gone refuses first, whatever
      its fill; otherwise the message goes to the back when there is room. A refused
      message leaves the channel exactly as it was. */
  function TrySend<T>(m: Mailbox<T>, msg: T): (r: (Mailbox<T>, SendResult))
    requires m.Valid()
    ensures r.0.Valid() && r.0.capacity == m.capacity && r.0.connected == m.connected
    ensures r.1 == Sent <==> m.connected && |m.queue| < m.capacity
    ensures r.1 == Disconnected <==> !m.connected
    ensures r.1 == Sent ==> r.0.queue == m.queue + [msg]
    ensures r.1 != Sent ==> r.0 == m
  {
    if !m.connected then (m, Disconnected)
    else if |m.queue| < m.capacity then (m.(queue := m.queue + [msg]), Sent)
    else (m, Full)
  }

  /** What became of a message a logger front end was given: rejected by its level
      filter, queued for the worker, or dropped (and reported) because the channel
      was full or its receiver gone. */
  datatype Delivery = Filtered | Queued | Dropped

  /** Whether a channel takes one more message now. */
  predicate HasRoom<T>(m: Mailbox<T>)
  {
    m.connected && |m.queue| < m.capacity
  }

  /** `try_send` as the front ends use it: either error drops the message. */
  function Offer<T>(m: Mailbox<T>, msg: T): (r: (Mailbox<T>, Delivery))
    requires m.Valid()
    ensures r.0.Valid() && r.0.capacity == m.capacity && r.0.connected == m.connected
    ensures r.1 != Filtered
    ensures r.1 == Queued <==> HasRoom(m)
    ensures r.1 == Queued ==> r.0.queue == m.queue + [msg]
    ensures r.1 == Dropped ==> r.0 == m
  {
    var (m1, res) := TrySend(m, msg);
    (m1, if res == Sent then Queued else Dropped)
  }

  /** `recv` on a channel that holds a message: the oldest one comes out. */
  function Recv<T>(m: Mailbox<T>): (r: Option<(T, Mailbox<T>)>)
    requires m.Valid()
    ensures r.None? <==> m.queue == []
    ensures r.Some? ==> [r.value.0] + r.value.1.queue == m.queue
    ensures r.Some? ==> r.value.1.Valid() && r.value.1.capacity == m.capacity
    ensures r.Some? ==> r.value.1.connected == m.connected
  {
    if m.queue == [] then None else Some((m.queue[0], m.(queue := m.queue[1..])))
  }

  /** A burst of `try_send`s with no receive in between; `accepted` counts the successes. */
  function SendAll<T>(m: Mailbox<T>, msgs: seq<T>): (r: (Mailbox<T>, nat))
    requires m.Valid()
    ensures r.0.Valid() && r.0.capacity == m.capacity && r.0.connected == m.connected
    decreases |msgs|
  {
    if msgs == [] then (m, 0)
    else
      var (m1, res) := TrySend(m, msgs[0]);
      var (m2, n) := SendAll(m1, msgs[1..]);
      (m2, if res == Sent then n + 1 else n)
  }

  /** Receiving until the channel is empty. */
  function DrainAll<T>(m: Mailbox<T>): (r: seq<T>)
    requires m.Valid()
    decreases |m.queue|
  {
    match Recv(m)
    case None => []
    case Some((msg, rest)) => [msg] + DrainAll(rest)
  }

  /** How many of `n` messages a burst gets in: as many as fit, or none once the
      receiver is gone. */
  function Room<T>(m: Mailbox<T>, n: nat): nat
    requires m.Valid()
  {
    if m.connected then Min(n, m.capacity - |m.queue|) else 0
  }

  /** A burst keeps the head of the messages that fit, in order, and drops the rest:
      nothing is duplicated, reordered or waited on. */
  lemma {:induction false} SendAllKeepsPrefix<T>(m: Mailbox<T>, msgs: seq<T>)
    requires m.Valid()
    ensures var k := Room(m, |msgs|);
      SendAll(m, msgs).0.queue == m.queue + msgs[..k] && SendAll(m, msgs).1 == k
    decreases |msgs|
  {
    if msgs != [] {
      var (m1, res) := TrySend(m, msgs[0]);
      SendAllKeepsPrefix(m1, msgs[1..]);
      if res == Sent {
        var k1 := Min(|msgs| - 1, m.capacity - |m1.queue|);
        assert m1.queue + msgs[1..][..k1] == m.queue + msgs[..k1 + 1];
      } else {
        assert m1 == m;
        assert Room(m, |msgs|) == 0;
      }
    }
  }

  /** Everything in the channel comes out, in the order it went in. */
  lemma {:induction false} DrainAllIsQueue<T>(m: Mailbox<T>)
    requires m.Valid()
    ensures DrainAll(m) == m.queue
    decreases |m.queue|
  {
    match Recv(m)
    case None =>
    case Some((msg, rest)) =>
      DrainAllIsQueue(rest);
  }

  /** First-in first-out: messages sent to an empty channel with room for all of them
      are received exactly once each, in sending order. */
  lemma FifoRoundTrip<T>(capacity: nat, msgs: seq<T>)
    requires |msgs| <= capacity
    ensures DrainAll(SendAll(Bounded<T>(capacity), msgs).0) == msgs
  {
    SendAllKeepsPrefix(Bounded<T>(capacity), msgs);
    assert msgs[..|msgs|] == msgs;
    DrainAllIsQueue(SendAll(Bounded<T>(capacity), msgs).0);
  }
}

=== FILE: redis_log_message.dfy ===
/** The record published for every log line (redis_log_message.rs): bincode-packed,
    then Base64-encoded; and the test deserialiser that reverses both stages. */
module RedisLogMessage {
  import opened Base
  import Bincode
  import Base64

  /** `LogMessage`, fields in declaration order. */
  datatype LogMessage = LogMessage(
    message: string,
    group: string,
    index: string,
    channelName: string,
    metadata: Option<string>)

  /** Every field fits bincode's `u64` length prefix (always so for in-memory strings). */
  predicate Fits(m: LogMessage)
  {
    && Bincode.Fits(m.message) && Bincode.Fits(m.group) && Bincode.Fits(m.index)
    && Bincode.Fits(m.channelName) && Bincode.OptionFits(m.metadata)
  }

  /** The four string fields, in declaration order. */
  function StringFields(m: LogMessage): seq<string>
  {
    [m.message, m.group, m.index, m.channelName]
  }

  /** `bincode::serialize`: the fields one after the other, in declaration order. */
  function Pack(m: LogMessage): (bs: seq<byte>)
    ensures bs == Bincode.PutStr(m.message) + Bincode.PutStr(m.group) + Bincode.PutStr(m.index)
      + Bincode.PutStr(m.channelName) + Bincode.PutOption(m.metadata)
  {
    PutFourStrs(m.message, m.group, m.index, m.channelName);
    Bincode.PutStrs(StringFields(m)) + Bincode.PutOption(m.metadata)
  }

  /** Four strings written one after the other are their encodings joined. */
  lemma PutFourStrs(a: string, b: string, c: string, d: string)
    ensures Bincode.PutStrs([a, b, c, d])
      == Bincode.PutStr(a) + Bincode.PutStr(b) + Bincode.PutStr(c) + Bincode.PutStr(d)
  {
    Bincode.PutManyFour(Bincode.PutStr, a, b, c, d);
  }

  /** `bincode::deserialize`: reads the fields in the same order and ignores any bytes
      left over; `None` when a field cannot be read. */
  function Unpack(bs: seq<byte>): (r: Option<LogMessage>)
    ensures Bincode.GetStrs(bs, 4).None? ==> r.None?
    ensures r.Some? ==> Bincode.GetStrs(bs, 4).Some? && StringFields(r.value) == Bincode.GetStrs(bs, 4).value.0
  {
    match Bincode.GetStrs(bs, 4)
    case None => None
    case Some((fields, k)) =>
      match Bincode.GetOption(bs[k..])
      case None => None
      case Some((metadata, _)) =>
        FourFields(fields);
        Some(LogMessage(fields[0], fields[1], fields[2], fields[3], metadata))
  }

  /** `redis_serialize`: Base64 of the packed record. */
  function RedisSerialize(m: LogMessage): (s: string)
    ensures Base64.PaddedText(s) && |s| % 4 == 0
    ensures Base64.Decode(s) == Some(Pack(m))
  {
    Base64.EncodeIsPaddedText(Pack(m));
    Base64.EncodeLength(Pack(m));
    Base64.DecodeEncode(Pack(m));
    Base64.Encode(Pack(m))
  }

  /** Why a payload was rejected: not Base64, or not a packed record. */
  datatype DecodeError = InvalidBase64 | InvalidRecord

  datatype DecodeResult = Decoded(msg: LogMessage) | Failed(error: DecodeError)

  /** `LogMessageDeserializer::deserialize`: Base64-decode, then unpack; each stage's
      failure is returned as an error value, never a panic. */
  function Deserialize(data: string): (r: DecodeResult)
    ensures r == Failed(InvalidBase64) <==> Base64.Decode(data).None?
    ensures r == Failed(InvalidRecord) <==>
      Base64.Decode(data).Some? && Unpack(Base64.Decode(data).value).None?
    ensures r.Decoded? ==>
      Base64.Decode(data).Some? && Unpack(Base64.Decode(data).value) == Some(r.msg)
  {
    var bytes := Base64.Decode(data);
    if bytes.None? then Failed(InvalidBase64)
    else
      var m := Unpack(bytes.value);
      if m.None? then Failed(InvalidRecord) else Decoded(m.value)
  }

  /** Unpacking a packed record, whatever follows it, gives back the record. */
  lemma UnpackPack(m: LogMessage, rest: seq<byte>)
    requires Fits(m)
    ensures Unpack(Pack(m) + rest) == Some(m)
  {
    var fs := StringFields(m);
    var ps, po := Bincode.PutStrs(fs), Bincode.PutOption(m.metadata);
    Bincode.Reassociate(ps, po, rest);
    Bincode.GetPutStrs(fs, po + rest);
    Bincode.DropPrefix(ps, po + rest);
    Bincode.GetPutOption(m.metadata, rest);
  }

  /** The round trip the crate's test asserts, for every record: with or without
      metadata, deserialising a serialised record gives back the record. */
  lemma DeserializeSerialize(m: LogMessage)
    requires Fits(m)
    ensures Deserialize(RedisSerialize(m)) == Decoded(m)
  {
    Base64.DecodeEncode(Pack(m));
    UnpackPack(m, []);
    assert Pack(m) + [] == Pack(m);
  }

  /** What unpacking accepts: a packed record followed by bytes it ignores. */
  lemma PackUnpack(bs: seq<byte>)
    requires Unpack(bs).Some?
    ensures Fits(Unpack(bs).value)
    ensures Pack(Unpack(bs).value) <= bs
  {
    var m := Unpack(bs).value;
    var (fields, k) := Bincode.GetStrs(bs, 4).value;
    var tail := bs[k..];
    var (_, k5) := Bincode.GetOption(tail).value;
    Bincode.PutGetStrs(bs, 4);
    Bincode.PutGetOption(tail);
    FourFields(fields);
    Bincode.SplitPrefix(bs, k, k5);
    TakeIsPrefix(bs, k + k5);
  }

  lemma FourFields(fields: seq<string>)
    requires |fields| == 4
    ensures [fields[0], fields[1], fields[2], fields[3]] == fields
  {
  }

  lemma TakeIsPrefix<T>(s: seq<T>, n: nat)
    requires n <= |s|
    ensures s[..n] <= s
  {
  }

  /** What the deserialiser accepts: the canonical Base64 encoding of a packed record
      followed by bytes it ignores. */
  lemma DeserializeAccepts(data: string)
    requires Deserialize(data).Decoded?
    ensures var bytes := Base64.Decode(data).value;
      && Base64.Encode(bytes) == data
      && Fits(Deserialize(data).msg)
      && Pack(Deserialize(data).msg) <= bytes
  {
    var bytes := Base64.Decode(data).value;
    Base64.EncodeDecode(data);
    PackUnpack(bytes);
  }
}

=== FILE: redis_logger.dfy ===
/** The Redis sink (redis_logger.rs): a front end that filters by level and hands
    `(line, level)` pairs to a bounded channel, and a background worker that batches
    them and publishes each batch as one pipeline of `PUBLISH` commands, one per
    entry, on a channel chosen by severity. */
module RedisLogger {
  import opened Base
  import opened Levels
  import opened LogRecord
  import opened Mailbox
  import opened RedisLogMessage
  import LogFacade

  /** The prefix of every channel name. */
  const CHANNEL_NAMESPACE: string := "monitoring-nomad:"

  /** `buffer_size`: a batch this long is published at once. */
  const BUFFER_SIZE: nat := 500

  /** A batch older than this many whole seconds is published with the next entry. */
  const FLUSH_INTERVAL_SECS: nat := 10

  /** `bounded(4096 * 8)`. */
  const MAILBOX_CAPACITY: nat := 4096 * 8

  /** Consecutive `recv` failures after which the worker publishes and stops. */
  const MAX_RECV_FAILURES: nat := 3

  /** The clock counts milliseconds; `as_secs` truncates to whole seconds. */
  const MILLIS_PER_SEC: nat := 1000

  // ---------------------------------------------------------------------------
  // Configuration and channels

  datatype Config = Config(redisConnectionString: string, maxLogLevel: Level, groupName: string, index: string)

  /** `RedisLoggerConfig::new`: the maximum level is always `Info`. */
  function NewConfig(connection: string, group: string, allocIndex: string): (c: Config)
    ensures c.maxLogLevel == Info
    ensures c.redisConnectionString == connection && c.groupName == group && c.index == allocIndex
  {
    Config(connection, Info, group, allocIndex)
  }

  datatype Channels = Channels(stdout: string, warn: string, stderr: string)

  /** The three channel names `init_task` derives from the group name. */
  function ChannelNames(group: string): (chs: Channels)
    ensures CHANNEL_NAMESPACE + group <= chs.stdout
    ensures CHANNEL_NAMESPACE + group <= chs.warn
    ensures CHANNEL_NAMESPACE + group <= chs.stderr
    // then the kind of the channel
    ensures chs.stdout[|CHANNEL_NAMESPACE + group|..] == ".stdout"
    ensures chs.warn[|CHANNEL_NAMESPACE + group|..] == ".warn"
    ensures chs.stderr[|CHANNEL_NAMESPACE + group|..] == ".stderr"
  {
    var base := CHANNEL_NAMESPACE + group;
    Channels(base + ".stdout", base + ".warn", base + ".stderr")
  }

  /** The three channels of a group are distinct, and different groups never share a
      channel of the same kind. */
  lemma ChannelNamesDistinct(g: string, h: string)
    ensures var chs := ChannelNames(g);
      chs.stdout != chs.warn && chs.warn != chs.stderr && chs.stdout != chs.stderr
    ensures ChannelNames(g).stdout == ChannelNames(h).stdout ==> g == h
    ensures ChannelNames(g).warn == ChannelNames(h).warn ==> g == h
    ensures ChannelNames(g).stderr == ChannelNames(h).stderr ==> g == h
  {
    var chs := ChannelNames(g);
    var n := |CHANNEL_NAMESPACE| + |g|;
    assert chs.stdout[n + 4] == 'o' && chs.stderr[n + 4] == 'e';
    assert |chs.warn| == n + 5 < |chs.stdout|;
    if ChannelNames(g).stdout == ChannelNames(h).stdout {
      assert g == ChannelNames(g).stdout[|CHANNEL_NAMESPACE|..n];
      assert h == ChannelNames(h).stdout[|CHANNEL_NAMESPACE|..|CHANNEL_NAMESPACE| + |h|];
    }
    if ChannelNames(g).warn == ChannelNames(h).warn {
      assert g == ChannelNames(g).warn[|CHANNEL_NAMESPACE|..n];
      assert h == ChannelNames(h).warn[|CHANNEL_NAMESPACE|..|CHANNEL_NAMESPACE| + |h|];
    }
    if ChannelNames(g).stderr == ChannelNames(h).stderr {
      assert g == ChannelNames(g).stderr[|CHANNEL_NAMESPACE|..n];
      assert h == ChannelNames(h).stderr[|CHANNEL_NAMESPACE|..|CHANNEL_NAMESPACE| + |h|];
    }
  }

  /** The routing in `publish_log_buffer`. */
  function ChannelFor(chs: Channels, level: Level): (c: string)
    ensures c == chs.stderr || c == chs.warn || c == chs.stdout
    ensures level == Error ==> c == chs.stderr
    ensures level == Warn ==> c == chs.warn
    ensures Le(Info, level) ==> c == chs.stdout
  {
    match level
    case Error => chs.stderr
    case Warn => chs.warn
    case _ => chs.stdout
  }

  /** With a group's channels, the channel a line lands on tells its severity class:
      standard error exactly for `Error`, the warn channel exactly for `Warn`, standard
      output for everything less severe. */
  lemma RoutingIff(g: string, level: Level)
    ensures var chs := ChannelNames(g);
      && (ChannelFor(chs, level) == chs.stderr <==> level == Error)
      && (ChannelFor(chs, level) == chs.warn <==> level == Warn)
      && (ChannelFor(chs, level) == chs.stdout <==> Le(Info, level))
  {
    ChannelNamesDistinct(g, g);
  }

  // ---------------------------------------------------------------------------
  // Batches and pipelines

  /** A buffered line and the level it was logged at. */
  datatype Entry = Entry(text: string, level: Level)

  /** What the worker knows besides its state: where to publish and how to label. */
  datatype Sink = Sink(channels: Channels, group: string, index: string)

  /** One `PUBLISH channel payload`. */
  datatype Command = Publish(channel: string, payload: string)

  /** The record published for an entry: the configured group and index, the routed
      channel, and no metadata. */
  function ToMessage(sink: Sink, e: Entry): LogMessage
  {
    LogMessage(e.text, sink.group, sink.index, ChannelFor(sink.channels, e.level), None)
  }

  /** The `PUBLISH` for one entry: its record, serialised, on the record's channel. */
  function PublishOf(sink: Sink, e: Entry): (cmd: Command)
    ensures cmd.channel == ChannelFor(sink.channels, e.level)
  {
    Publish(ToMessage(sink, e).channelName, RedisSerialize(ToMessage(sink, e)))
  }

  /** `f(x, _)` applied to every element of `s`, in order. */
  function MapWith<X, A, B>(f: (X, A) -> B, x: X, s: seq<A>): (r: seq<B>)
    ensures |r| == |s|
    decreases |s|
  {
    if s == [] then [] else [f(x, s[0])] + MapWith(f, x, s[1..])
  }

  /** Element `i` of the mapped sequence is `f` of element `i`. */
  lemma {:induction false} MapWithAt<X, A, B>(f: (X, A) -> B, x: X, s: seq<A>, i: nat)
    requires i < |s|
    ensures MapWith(f, x, s)[i] == f(x, s[i])
    decreases i
  {
    if i > 0 {
      MapWithAt(f, x, s[1..], i - 1);
    }
  }

  lemma MapWithAll<X, A, B>(f: (X, A) -> B, x: X, s: seq<A>)
    ensures forall i :: 0 <= i < |s| ==> MapWith(f, x, s)[i] == f(x, s[i])
  {
    forall i | 0 <= i < |s|
      ensures MapWith(f, x, s)[i] == f(x, s[i])
    {
      MapWithAt(f, x, s, i);
    }
  }

  /** Mapping two sequences joined is mapping each and joining the results. */
  lemma {:induction false} MapWithAppend<X, A, B>(f: (X, A) -> B, x: X, a: seq<A>, b: seq<A>)
    ensures MapWith(f, x, a + b) == MapWith(f, x, a) + MapWith(f, x, b)
    decreases |a|
  {
    if a == [] {
      assert a + b == b;
    } else {
      MapWithAppend(f, x, a[1..], b);
      assert (a + b)[1..] == a[1..] + b;
      assert (a + b)[0] == a[0];
    }
  }

  /** `build_pipeline` over the mapped buffer: one `PUBLISH` per entry, in buffer order. */
  function Pipeline(sink: Sink, buffer: seq<Entry>): (cmds: seq<Command>)
    ensures |cmds| == |buffer|
    ensures forall i :: 0 <= i < |buffer| ==>
      cmds[i].channel == ChannelFor(sink.channels, buffer[i].level)
  {
    seq(|buffer|, i requires 0 <= i < |buffer| => PublishOf(sink, buffer[i]))
  }

  /** The pipeline is `PublishOf` mapped over the batch. */
  lemma PipelineIsMap(sink: Sink, buffer: seq<Entry>)
    ensures Pipeline(sink, buffer) == MapWith(PublishOf, sink, buffer)
  {
    MapWithAll(PublishOf, sink, buffer);
  }

  /** Every fields fits the wire format. */
  predicate EntryFits(sink: Sink, e: Entry)
  {
    RedisLogMessage.Fits(ToMessage(sink, e))
  }

  /** Reading the pipeline back: command `i` carries entry `i`'s line, the configured
      group and index, no metadata, and names the channel it is published on. */
  lemma PipelineDecodes(sink: Sink, buffer: seq<Entry>, i: nat)
    requires i < |buffer| && EntryFits(sink, buffer[i])
    ensures var cmd := Pipeline(sink, buffer)[i];
      && Deserialize(cmd.payload).Decoded?
      && Deserialize(cmd.payload).msg.message == buffer[i].text
      && Deserialize(cmd.payload).msg.group == sink.group
      && Deserialize(cmd.payload).msg.index == sink.index
      && Deserialize(cmd.payload).msg.channelName == cmd.channel
      && Deserialize(cmd.payload).msg.metadata.None?
  {
    DeserializeSerialize(ToMessage(sink, buffer[i]));
  }

  // ---------------------------------------------------------------------------
  // The broker

  /** How one execution of a pipeline ends. The pipeline is not a transaction: each
      command runs on its own, so a failing execution may have run any of its commands;
      `executed[i]` says whether command `i` reached its channel. */
  datatype QueryOutcome = QueryOk | QueryErr(executed: seq<bool>)

  /** One turn of the retry loop: reconnecting failed (nothing is sent), or it worked
      and the pipeline was executed again. */
  datatype Retry = ReconnectFailed | Reconnected(outcome: QueryOutcome)

  /** The broker's behaviour during one publish: the first query, then the retries. */
  datatype BrokerOracle = BrokerOracle(first: QueryOutcome, retries: seq<Retry>)

  /** Some execution of the pipeline succeeds. */
  predicate Confirms(broker: BrokerOracle)
  {
    broker.first == QueryOk || Reconnected(QueryOk) in broker.retries
  }

  /** The elements of `xs` whose flag in `mask` is set, in order; a missing flag is
      unset. */
  function Select<T>(xs: seq<T>, mask: seq<bool>): (d: seq<T>)
    ensures |d| <= |xs|
    ensures forall c :: c in d ==> c in xs
    decreases |xs|
  {
    if xs == [] || mask == [] then []
    else (if mask[0] then [xs[0]] else []) + Select(xs[1..], mask[1..])
  }

  /** Every element of `d` is one of `cmds`. */
  predicate Within<T(==)>(d: seq<T>, cmds: seq<T>)
  {
    forall c :: c in d ==> c in cmds
  }

  /** The commands one execution of `cmds` delivers. */
  function Delivered(cmds: seq<Command>, q: QueryOutcome): (d: seq<Command>)
    ensures Within(d, cmds) && |d| <= |cmds|
    ensures q == QueryOk ==> d == cmds
  {
    match q
    case QueryOk => cmds
    case QueryErr(mask) => Select(cmds, mask)
  }

  /** The retry loop of `publish_log_buffer`, over a finite horizon: what each
      re-execution delivered, and whether one succeeded. */
  function RetryAttempts(cmds: seq<Command>, retries: seq<Retry>): (r: (seq<seq<Command>>, bool))
    ensures forall i :: 0 <= i < |r.0| ==> Within(r.0[i], cmds)
    ensures r.1 <==> Reconnected(QueryOk) in retries
    ensures r.1 ==> |r.0| > 0 && r.0[|r.0| - 1] == cmds
  {
    if retries == [] then ([], false)
    else
      match retries[0]
      case ReconnectFailed =>
        var (more, ok) := RetryAttempts(cmds, retries[1..]);
        assert retries == [retries[0]] + retries[1..];
        (more, ok)
      case Reconnected(QueryOk) => ([cmds], true)
      case Reconnected(QueryErr(mask)) =>
        var (more, ok) := RetryAttempts(cmds, retries[1..]);
        assert retries == [retries[0]] + retries[1..];
        ([Delivered(cmds, QueryErr(mask))] + more, ok)
  }

  /** All executions of one publish: the first query and then the retry loop. Every
      execution resends the same list, and the loop ends on the first success. */
  function Attempts(cmds: seq<Command>, broker: BrokerOracle): (r: (seq<seq<Command>>, bool))
    ensures |r.0| >= 1
    ensures forall i :: 0 <= i < |r.0| ==> Within(r.0[i], cmds)
    ensures r.1 <==> Confirms(broker)
    ensures r.1 ==> r.0[|r.0| - 1] == cmds
  {
    if broker.first == QueryOk then ([cmds], true)
    else
      var (more, ok) := RetryAttempts(cmds, broker.retries);
      ([Delivered(cmds, broker.first)] + more, ok)
  }

  /** `b` is the tail of `a`. */
  predicate EndsWith<T(==)>(a: seq<T>, b: seq<T>)
  {
    |b| <= |a| && a[|a| - |b|..] == b
  }

  function Concat<T>(ss: seq<seq<T>>): seq<T>
  {
    if ss == [] then [] else ss[0] + Concat(ss[1..])
  }

  /** Joining sequences whose elements all come from `cmds` gives one whose elements
      all come from `cmds`. */
  lemma {:induction false} ConcatWithin<T>(ss: seq<seq<T>>, cmds: seq<T>)
    requires forall i :: 0 <= i < |ss| ==> Within(ss[i], cmds)
    ensures Within(Concat(ss), cmds)
  {
    if ss != [] {
      ConcatWithin(ss[1..], cmds);
      assert Within(ss[0], cmds);
    }
  }

  lemma {:induction false} ConcatEndsWithLast<T>(ss: seq<seq<T>>)
    requires |ss| > 0
    ensures EndsWith(Concat(ss), ss[|ss| - 1])
  {
    if |ss| > 1 {
      ConcatEndsWithLast(ss[1..]);
      assert ss[1..][|ss| - 2] == ss[|ss| - 1];
    }
  }

  // ---------------------------------------------------------------------------
  // The background worker

  /** `Running` is the receive loop; `Retrying` is a publish still inside its retry
      loop when the broker's horizon ends; `Stopped` is the return after repeated
      receive failures. */
  datatype Phase = Running | Retrying | Stopped

  /** `RedisLoggerBackgroundService` with the `consecutive_failures` of `run`.
      `lastFlush` is a clock reading in milliseconds. `wire` is every command that
      reached the broker, in order; `confirmed` is every entry of a batch whose publish
      succeeded, in order. */
  datatype Worker = Worker(
    sink: Sink,
    buffer: seq<Entry>,
    lastFlush: nat,
    failures: nat,
    phase: Phase,
    wire: seq<Command>,
    confirmed: seq<Entry>)
  {
    /** The batch stays short while the loop runs, the failure counter has not reached
        the limit, and a worker that stopped has nothing left to publish. */
    predicate Valid()
    {
      && |buffer| <= BUFFER_SIZE
      && (phase == Running ==> |buffer| < BUFFER_SIZE && failures < MAX_RECV_FAILURES)
      && (phase == Stopped ==> buffer == [])
    }
  }

  /** `last_flush.elapsed().as_secs()`: whole seconds, and never negative. */
  function ElapsedSecs(last: nat, now: nat): (s: nat)
    ensures now <= last ==> s == 0
    ensures s * MILLIS_PER_SEC <= now - last < (s + 1) * MILLIS_PER_SEC || now <= last
  {
    if now <= last then 0 else (now - last) / MILLIS_PER_SEC
  }

  /** `publish_log_buffer`. On success the batch is cleared and the clock restarted, even
      for an empty batch. While the retry loop has not succeeded nothing is cleared:
      the worker is still inside it. */
  function PublishBuffer(w: Worker, broker: BrokerOracle, now: nat): (r: Worker)
    ensures r.sink == w.sink && r.failures == w.failures
    ensures |w.wire| <= |r.wire| && r.wire[..|w.wire|] == w.wire
    // nothing but this batch's commands is sent, and at least one execution happens
    ensures Within(r.wire[|w.wire|..], Pipeline(w.sink, w.buffer))
    ensures Confirms(broker) ==> EndsWith(r.wire[|w.wire|..], Pipeline(w.sink, w.buffer))
    ensures Confirms(broker) ==>
      r.buffer == [] && r.lastFlush == now && r.phase == w.phase && r.confirmed == w.confirmed + w.buffer
    ensures !Confirms(broker) ==>
      r.buffer == w.buffer && r.lastFlush == w.lastFlush && r.phase == Retrying && r.confirmed == w.confirmed
  {
    var (attempts, ok) := Attempts(Pipeline(w.sink, w.buffer), broker);
    var wire := w.wire + Concat(attempts);
    assert wire[|w.wire|..] == Concat(attempts);
    ConcatEndsWithLast(attempts);
    ConcatWithin(attempts, Pipeline(w.sink, w.buffer));
    if ok then w.(buffer := [], lastFlush := now, wire := wire, confirmed := w.confirmed + w.buffer)
    else w.(wire := wire, phase := Retrying)
  }

  /** What the worker's `recv` yields, with the clock reading and the broker's behaviour
      for any publish this turn makes. */
  datatype Event =
    | Received(msg: BackgroundLoggerMessage, level: Level, now: nat, broker: BrokerOracle)
    | RecvFailed(now: nat, broker: BrokerOracle)

  /** The entry a turn takes in: a line received while the loop runs. */
  function Accepted(w: Worker, ev: Event): seq<Entry>
  {
    if w.phase == Running && ev.Received? && ev.msg.Text? then [Entry(ev.msg.line, ev.level)] else []
  }

  /** The flush trigger after a push: the batch has reached `buffer_size`, or more than
      ten whole seconds have passed since the last publish. */
  predicate Due(buffer: seq<Entry>, lastFlush: nat, now: nat)
  {
    |buffer| >= BUFFER_SIZE || ElapsedSecs(lastFlush, now) > FLUSH_INTERVAL_SECS
  }

  /** One turn of `run`'s loop. */
  function Step(w: Worker, ev: Event): (r: Worker)
    ensures r.sink == w.sink
    ensures w.Valid() ==> r.Valid()
    ensures w.phase != Running ==> r == w
    // nothing is lost, duplicated or reordered: a batch entry is either still buffered
    // or confirmed
    ensures r.confirmed + r.buffer == w.confirmed + w.buffer + Accepted(w, ev)
    ensures |w.wire| <= |r.wire| && r.wire[..|w.wire|] == w.wire
    ensures w.phase == Running && ev.Received? ==> r.failures == 0
    ensures w.phase == Running && ev.RecvFailed? && w.failures + 1 < MAX_RECV_FAILURES ==>
      r == w.(failures := w.failures + 1)
    ensures w.phase == Running && ev.RecvFailed? && w.failures + 1 >= MAX_RECV_FAILURES ==>
      r.phase == (if Confirms(ev.broker) then Stopped else Retrying)
    // the final publish sends the batch's pipeline, and only it
    ensures w.phase == Running && ev.RecvFailed? && w.failures + 1 >= MAX_RECV_FAILURES ==>
      && Within(r.wire[|w.wire|..], Pipeline(w.sink, w.buffer))
      && (Confirms(ev.broker) ==> EndsWith(r.wire, Pipeline(w.sink, w.buffer)))
  {
    if w.phase != Running then w
    else
      match ev
      case RecvFailed(now, broker) => FailedTurn(w, now, broker)
      case Received(msg, level, now, broker) => ReceivedTurn(w, msg, level, now, broker)
  }

  /** A turn whose `recv` failed: below the limit it only counts; at the limit the
      batch is published and the loop ends, once the publish gets through. */
  function FailedTurn(w: Worker, now: nat, broker: BrokerOracle): (r: Worker)
    requires w.phase == Running
    ensures r.sink == w.sink
    ensures w.Valid() ==> r.Valid()
    ensures r.confirmed + r.buffer == w.confirmed + w.buffer
    ensures |w.wire| <= |r.wire| && r.wire[..|w.wire|] == w.wire
    ensures w.failures + 1 < MAX_RECV_FAILURES ==> r == w.(failures := w.failures + 1)
    ensures w.failures + 1 >= MAX_RECV_FAILURES ==>
      r.phase == (if Confirms(broker) then Stopped else Retrying)
    // the final publish sends the batch's pipeline, and only it
    ensures w.failures + 1 >= MAX_RECV_FAILURES ==>
      && Within(r.wire[|w.wire|..], Pipeline(w.sink, w.buffer))
      && (Confirms(broker) ==> EndsWith(r.wire, Pipeline(w.sink, w.buffer)))
  {
    var failures := w.failures + 1;
    if failures >= MAX_RECV_FAILURES then
      var r := PublishBuffer(w.(failures := failures), broker, now);
      EndsWithAfter(r.wire, |w.wire|, Pipeline(w.sink, w.buffer), Confirms(broker));
      if r.phase == Running then r.(phase := Stopped) else r
    else w.(failures := failures)
  }

  /** A turn that received a message: the failure count resets, a line joins the batch
      and publishes it when due, and a flush request always publishes. */
  function ReceivedTurn(w: Worker, msg: BackgroundLoggerMessage, level: Level, now: nat, broker: BrokerOracle)
    : (r: Worker)
    requires w.phase == Running
    ensures r.sink == w.sink && r.failures == 0
    ensures w.Valid() ==> r.Valid()
    ensures r.confirmed + r.buffer
      == w.confirmed + w.buffer + (if msg.Text? then [Entry(msg.line, level)] else [])
    ensures |w.wire| <= |r.wire| && r.wire[..|w.wire|] == w.wire
  {
    var w0 := w.(failures := 0);
    match msg
    case Text(line) =>
      var w1 := w0.(buffer := w0.buffer + [Entry(line, level)]);
      if Due(w1.buffer, w1.lastFlush, now) then PublishBuffer(w1, broker, now) else w1
    case Flush => PublishBuffer(w0, broker, now)
  }

  /** After a line arrives, the batch is published exactly when it has reached
      `buffer_size` or more than ten whole seconds have passed, whatever the broker
      does: a publish either clears the batch or is still retrying. Otherwise the batch
      just grows and nothing is sent. */
  lemma LineTriggersIff(w: Worker, line: string, level: Level, now: nat, broker: BrokerOracle)
    requires w.Valid() && w.phase == Running
    ensures var r := Step(w, Received(Text(line), level, now, broker));
      var b := w.buffer + [Entry(line, level)];
      && ((r.phase == Retrying || r.buffer == []) <==> Due(b, w.lastFlush, now))
      && (!Due(b, w.lastFlush, now) ==>
            r.buffer == b && r.wire == w.wire && r.phase == Running && r.lastFlush == w.lastFlush
            && r.confirmed == w.confirmed)
      && (Due(b, w.lastFlush, now) && Confirms(broker) ==>
            r.buffer == [] && r.phase == Running && r.lastFlush == now && r.confirmed == w.confirmed + b
            && EndsWith(r.wire, Pipeline(w.sink, b)))
      && (Due(b, w.lastFlush, now) && !Confirms(broker) ==>
            r.phase == Retrying && r.buffer == b && r.lastFlush == w.lastFlush && r.confirmed == w.confirmed)
  {
    var r := Step(w, Received(Text(line), level, now, broker));
    var b := w.buffer + [Entry(line, level)];
    if Due(b, w.lastFlush, now) && Confirms(broker) {
      EndsWithSuffix(r.wire, |w.wire|, Pipeline(w.sink, b));
    }
  }

  /** An explicit flush request always publishes, even an empty batch: the broker
      accepts it and the batch is cleared and the clock restarted, or the worker is in
      the retry loop with the batch kept. */
  lemma FlushAlwaysPublishes(w: Worker, level: Level, now: nat, broker: BrokerOracle)
    requires w.phase == Running
    ensures var r := Step(w, Received(BackgroundLoggerMessage.Flush, level, now, broker));
      && (Confirms(broker) || r.phase == Retrying)
      && Within(r.wire[|w.wire|..], Pipeline(w.sink, w.buffer))
      && (Confirms(broker) ==>
            r.buffer == [] && r.lastFlush == now && r.phase == Running
            && r.confirmed == w.confirmed + w.buffer
            && EndsWith(r.wire, Pipeline(w.sink, w.buffer)))
      && (!Confirms(broker) ==>
            r.buffer == w.buffer && r.lastFlush == w.lastFlush && r.confirmed == w.confirmed)
  {
    var w0 := w.(failures := 0);
    var r := PublishBuffer(w0, broker, now);
    assert Step(w, Received(BackgroundLoggerMessage.Flush, level, now, broker)) == r;
    if Confirms(broker) {
      EndsWithSuffix(r.wire, |w.wire|, Pipeline(w.sink, w.buffer));
    }
  }

  /** `EndsWithSuffix`, when a condition holds; a function's body can call it without
      a case split. */
  lemma EndsWithAfter<T>(a: seq<T>, n: nat, b: seq<T>, cond: bool)
    requires n <= |a| && (cond ==> EndsWith(a[n..], b))
    ensures cond ==> EndsWith(a, b)
  {
    if cond {
      EndsWithSuffix(a, n, b);
    }
  }

  /** Whatever a suffix ends with, the whole sequence ends with. */
  lemma EndsWithSuffix<T>(a: seq<T>, n: nat, b: seq<T>)
    requires n <= |a| && EndsWith(a[n..], b)
    ensures EndsWith(a, b)
  {
    assert a[|a| - |b|..] == a[n..][|a| - n - |b|..];
  }

  /** A batch is never cleared without a successful publish: while the broker keeps
      failing, every entry stays buffered and the clock is not restarted. */
  lemma ClearedOnlyOnSuccess(w: Worker, ev: Event)
    requires w.phase == Running && !Confirms(ev.broker)
    ensures Step(w, ev).confirmed == w.confirmed
    ensures Step(w, ev).buffer == w.buffer + Accepted(w, ev)
    ensures Step(w, ev).lastFlush == w.lastFlush
  {
  }

  /** The worker after a sequence of events. */
  function Run(w: Worker, evs: seq<Event>): (r: Worker)
    ensures r.sink == w.sink
    ensures w.Valid() ==> r.Valid()
    decreases |evs|
  {
    if evs == [] then w else Step(Run(w, evs[..|evs| - 1]), evs[|evs| - 1])
  }

  /** Three `recv` failures in a row from a running worker publish the batch and stop it,
      when the broker accepts; fewer leave it running with the batch untouched. */
  lemma ThreeFailuresStop(w: Worker, t0: nat, t1: nat, t2: nat, b0: BrokerOracle, b1: BrokerOracle, b2: BrokerOracle)
    requires w.Valid() && w.phase == Running && w.failures == 0 && Confirms(b2)
    ensures var w1 := Step(w, RecvFailed(t0, b0));
      var w2 := Step(w1, RecvFailed(t1, b1));
      var w3 := Step(w2, RecvFailed(t2, b2));
      && w1.phase == Running && w2.phase == Running && w2.buffer == w.buffer && w2.wire == w.wire
      && w3.phase == Stopped && w3.buffer == [] && w3.confirmed == w.confirmed + w.buffer
      && w3.wire[..|w.wire|] == w.wire && EndsWith(w3.wire, Pipeline(w.sink, w.buffer))
  {
  }

  /** The lines of the received text messages, with their levels, in arrival order. */
  function Arrivals(evs: seq<Event>): seq<Entry>
  {
    if evs == [] then []
    else
      var last := evs[|evs| - 1];
      Arrivals(evs[..|evs| - 1]) + (if last.Received? && last.msg.Text? then [Entry(last.msg.line, last.level)] else [])
  }

  /** Over a run that leaves the loop running, every received line is either confirmed
      by the broker or still in the batch, once each and in arrival order. */
  lemma {:induction false} RunKeepsEveryLine(w: Worker, evs: seq<Event>)
    requires Run(w, evs).phase == Running
    ensures Run(w, evs).confirmed + Run(w, evs).buffer == w.confirmed + w.buffer + Arrivals(evs)
    decreases |evs|
  {
    if evs != [] {
      var pre := evs[..|evs| - 1];
      var r0 := Run(w, pre);
      assert r0.phase == Running;
      RunKeepsEveryLine(w, pre);
    }
  }

  /** `a` occurs in `b` in order, not necessarily contiguously. Matching greedily from
      the front decides it. */
  predicate Subseq<T(==)>(a: seq<T>, b: seq<T>)
    decreases |b|
  {
    a == [] || (b != [] && if a[0] == b[0] then Subseq(a[1..], b[1..]) else Subseq(a, b[1..]))
  }

  /** Dropping the head of the pattern keeps it a subsequence. */
  lemma {:induction false} SubseqTail<T>(a: seq<T>, b: seq<T>)
    requires a != [] && Subseq(a, b)
    ensures Subseq(a[1..], b)
    decreases |b|, 1
  {
    if a[0] == b[0] {
      SubseqCons(a[1..], b[1..], b[0]);
    } else {
      SubseqTail(a, b[1..]);
      SubseqCons(a[1..], b[1..], b[0]);
    }
    assert [b[0]] + b[1..] == b;
  }

  /** One more element in front of the text keeps a subsequence. */
  lemma {:induction false} SubseqCons<T>(a: seq<T>, b: seq<T>, e: T)
    requires Subseq(a, b)
    ensures Subseq(a, [e] + b)
    decreases |b| + 1, 0
  {
    assert ([e] + b)[1..] == b;
    if a != [] && a[0] == e {
      SubseqTail(a, b);
    }
  }

  /** Any text in front keeps a subsequence. */
  lemma {:induction false} SubseqPrefix<T>(a: seq<T>, p: seq<T>, b: seq<T>)
    requires Subseq(a, b)
    ensures Subseq(a, p + b)
    decreases |p|
  {
    if p != [] {
      SubseqPrefix(a, p[1..], b);
      SubseqCons(a, p[1..] + b, p[0]);
      assert [p[0]] + (p[1..] + b) == p + b;
    } else {
      assert p + b == b;
    }
  }

  lemma {:induction false} SubseqRefl<T>(a: seq<T>)
    ensures Subseq(a, a)
    decreases |a|
  {
    if a != [] {
      SubseqRefl(a[1..]);
    }
  }

  /** Subsequences of two texts join into a subsequence of the joined texts. */
  lemma {:induction false} SubseqConcat<T>(a: seq<T>, b: seq<T>, c: seq<T>, d: seq<T>)
    requires Subseq(a, b) && Subseq(c, d)
    ensures Subseq(a + c, b + d)
    decreases |b|
  {
    if a == [] {
      SubseqPrefix(c, b, d);
      assert a + c == c;
    } else {
      assert (a + c)[0] == a[0] && (a + c)[1..] == a[1..] + c;
      assert (b + d)[0] == b[0] && (b + d)[1..] == b[1..] + d;
      if a[0] == b[0] {
        SubseqConcat(a[1..], b[1..], c, d);
      } else {
        SubseqConcat(a, b[1..], c, d);
      }
    }
  }

  /** The pipeline of two batches is their pipelines joined. */
  lemma PipelineAppend(sink: Sink, a: seq<Entry>, b: seq<Entry>)
    ensures Pipeline(sink, a + b) == Pipeline(sink, a) + Pipeline(sink, b)
  {
    PipelineIsMap(sink, a + b);
    PipelineIsMap(sink, a);
    PipelineIsMap(sink, b);
    MapWithAppend(PublishOf, sink, a, b);
  }

  /** What the broker has been sent includes, in order, one `PUBLISH` for every
      confirmed entry. */
  predicate ConfirmedOnWire(w: Worker)
  {
    Subseq(Pipeline(w.sink, w.confirmed), w.wire)
  }

  /** Traffic appended to a text keeps its subsequences, and traffic that ends with
      `cmds` extends them by `cmds`. */
  lemma SubseqGrows<T>(pc: seq<T>, wire: seq<T>, sent: seq<T>, cmds: seq<T>, ends: bool)
    requires Subseq(pc, wire) && (ends ==> EndsWith(sent, cmds))
    ensures Subseq(pc, wire + sent)
    ensures ends ==> Subseq(pc + cmds, wire + sent)
  {
    SubseqConcat(pc, wire, [], sent);
    assert pc + [] == pc;
    if ends {
      SubseqRefl(cmds);
      SubseqPrefix(cmds, sent[..|sent| - |cmds|], cmds);
      assert sent[..|sent| - |cmds|] + cmds == sent;
      SubseqConcat(pc, wire, cmds, sent);
    }
  }

  /** A publish keeps every confirmed entry on the wire: a success appends traffic that
      ends with the batch's own pipeline, and a failure confirms nothing. */
  lemma PublishKeepsConfirmedOnWire(w: Worker, broker: BrokerOracle, now: nat)
    requires ConfirmedOnWire(w)
    ensures ConfirmedOnWire(PublishBuffer(w, broker, now))
  {
    var r := PublishBuffer(w, broker, now);
    var sent := r.wire[|w.wire|..];
    assert r.wire == w.wire + sent;
    SubseqGrows(Pipeline(w.sink, w.confirmed), w.wire, sent, Pipeline(w.sink, w.buffer), Confirms(broker));
    PipelineAppend(w.sink, w.confirmed, w.buffer);
  }

  /** One turn keeps every confirmed entry on the wire. */
  lemma StepKeepsConfirmedOnWire(w: Worker, ev: Event)
    requires ConfirmedOnWire(w)
    ensures ConfirmedOnWire(Step(w, ev))
  {
    if w.phase == Running {
      match ev
      case RecvFailed(now, broker) => FailedTurnKeepsConfirmedOnWire(w, now, broker);
      case Received(msg, level, now, broker) => ReceivedTurnKeepsConfirmedOnWire(w, msg, level, now, broker);
    }
  }

  lemma FailedTurnKeepsConfirmedOnWire(w: Worker, now: nat, broker: BrokerOracle)
    requires w.phase == Running && ConfirmedOnWire(w)
    ensures ConfirmedOnWire(FailedTurn(w, now, broker))
  {
    if w.failures + 1 >= MAX_RECV_FAILURES {
      PublishKeepsConfirmedOnWire(w.(failures := w.failures + 1), broker, now);
    }
  }

  lemma ReceivedTurnKeepsConfirmedOnWire(w: Worker, msg: BackgroundLoggerMessage, level: Level, now: nat, broker: BrokerOracle)
    requires w.phase == Running && ConfirmedOnWire(w)
    ensures ConfirmedOnWire(ReceivedTurn(w, msg, level, now, broker))
  {
    var w0 := w.(failures := 0);
    match msg
    case Text(line) =>
      PublishKeepsConfirmedOnWire(w0.(buffer := w0.buffer + [Entry(line, level)]), broker, now);
    case Flush =>
      PublishKeepsConfirmedOnWire(w0, broker, now);
  }

  /** From a worker that has sent and confirmed nothing, every entry confirmed over any
      run was published to the broker: the wire holds their commands in confirmation
      order, among any resent or partially delivered ones. */
  lemma {:induction false} RunConfirmedOnWire(w: Worker, evs: seq<Event>)
    requires w.wire == [] && w.confirmed == []
    ensures Subseq(Pipeline(w.sink, Run(w, evs).confirmed), Run(w, evs).wire)
    decreases |evs|
  {
    if evs == [] {
      assert Pipeline(w.sink, []) == [];
    } else {
      RunConfirmedOnWire(w, evs[..|evs| - 1]);
      StepKeepsConfirmedOnWire(Run(w, evs[..|evs| - 1]), evs[|evs| - 1]);
    }
  }

  // ---------------------------------------------------------------------------
  // The front end and start-up

  /** `RedisLogger`: its maximum level, next to the sending end of the channel. */
  datatype Logger = Logger(maxLogLevel: Level)

  /** `enabled`: at least as severe as the configured maximum. */
  function IsEnabled(lg: Logger, level: Level): (b: bool)
    ensures b <==> level in LevelsUpTo(lg.maxLogLevel)
  {
    EnabledIffListed(level, lg.maxLogLevel);
    Enabled(level, lg.maxLogLevel)
  }

  /** `log`: a record the logger is not enabled for is not sent; otherwise the formatted
      line and its level are offered without waiting, and a full or disconnected
      channel drops them. */
  function Log(lg: Logger, mb: Mailbox<(BackgroundLoggerMessage, Level)>, r: Record)
    : (res: (Mailbox<(BackgroundLoggerMessage, Level)>, Delivery))
    requires mb.Valid()
    ensures res.0.Valid() && res.0.capacity == mb.capacity && res.0.connected == mb.connected
    ensures res.1 == Filtered <==> !Enabled(r.level, lg.maxLogLevel)
    ensures res.1 == Queued <==> Enabled(r.level, lg.maxLogLevel) && HasRoom(mb)
    ensures res.1 == Dropped <==> Enabled(r.level, lg.maxLogLevel) && !HasRoom(mb)
    ensures res.1 == Queued ==> res.0.queue == mb.queue + [(Text(FormatLog(r)), r.level)]
    ensures res.1 != Queued ==> res.0 == mb
  {
    if !IsEnabled(lg, r.level) then (mb, Filtered) else Offer(mb, (Text(FormatLog(r)), r.level))
  }

  /** `flush`: offers a flush request, tagged with the logger's maximum level; a full
      or disconnected channel drops it. */
  function Flush(lg: Logger, mb: Mailbox<(BackgroundLoggerMessage, Level)>)
    : (res: (Mailbox<(BackgroundLoggerMessage, Level)>, Delivery))
    requires mb.Valid()
    ensures res.0.Valid() && res.0.capacity == mb.capacity && res.0.connected == mb.connected
    ensures res.1 == Queued <==> HasRoom(mb)
    ensures res.1 == Queued ==> res.0.queue == mb.queue + [(BackgroundLoggerMessage.Flush, lg.maxLogLevel)]
    ensures res.1 != Queued ==> res.0 == mb
  {
    Offer(mb, (BackgroundLoggerMessage.Flush, lg.maxLogLevel))
  }

  /** The channel as the front end finds it: the receiving end belongs to the worker,
      and it is dropped when `run` returns. A worker still in its retry loop keeps it. */
  function SenderView(w: Worker, mb: Mailbox<(BackgroundLoggerMessage, Level)>)
    : (r: Mailbox<(BackgroundLoggerMessage, Level)>)
    requires mb.Valid()
    ensures r.Valid() && r.queue == mb.queue && r.capacity == mb.capacity
    ensures r.connected <==> mb.connected && w.phase != Stopped
  {
    if w.phase == Stopped then Disconnect(mb) else mb
  }

  /** Once the worker has stopped, every record and every flush request is dropped,
      however empty the channel. */
  lemma StoppedWorkerDropsAll(lg: Logger, w: Worker, mb: Mailbox<(BackgroundLoggerMessage, Level)>, r: Record)
    requires mb.Valid() && w.phase == Stopped
    ensures Log(lg, SenderView(w, mb), r).1 != Queued
    ensures Log(lg, SenderView(w, mb), r).0 == SenderView(w, mb)
    ensures Flush(lg, SenderView(w, mb)).1 == Dropped
    ensures Flush(lg, SenderView(w, mb)).0 == SenderView(w, mb)
  {
  }

  /** What `init_task` leaves behind. */
  datatype Start =
    | ClientFailed
    | ConnectFailed
    | NotRegistered
    | Started(facade: LogFacade.Facade<Logger>, mailbox: Mailbox<(BackgroundLoggerMessage, Level)>, worker: Worker)

  /** `init_task`: the client and the connection are opened first and either failure
      ends start-up with nothing registered; then the channel is made and the logger
      registered, and only if that succeeds does the worker run, with an empty batch,
      the clock started at `now` and the channels derived from the group name. */
  function InitTask(f: LogFacade.Facade<Logger>, config: Config, clientOk: bool, connectOk: bool, now: nat)
    : (s: Start)
    ensures s.ClientFailed? <==> !clientOk
    ensures s.ConnectFailed? <==> clientOk && !connectOk
    ensures s.Started? <==> clientOk && connectOk && f.logger.None?
    ensures s.Started? ==>
      && s.facade.logger == Some(Logger(config.maxLogLevel))
      && s.facade.maxLevel == Some(config.maxLogLevel)
      && s.mailbox.Valid() && s.mailbox.queue == [] && s.mailbox.capacity == MAILBOX_CAPACITY
      && s.mailbox.connected
      && s.worker.Valid() && s.worker.phase == Running && s.worker.buffer == []
      && s.worker.failures == 0 && s.worker.lastFlush == now
      && s.worker.wire == [] && s.worker.confirmed == []
      && s.worker.sink == Sink(ChannelNames(config.groupName), config.groupName, config.index)
  {
    if !clientOk then ClientFailed
    else if !connectOk then ConnectFailed
    else
      var mb := Bounded<(BackgroundLoggerMessage, Level)>(MAILBOX_CAPACITY);
      var (f1, ok) := LogFacade.Register(f, Logger(config.maxLogLevel), config.maxLogLevel);
      if !ok then NotRegistered
      else
        var sink := Sink(ChannelNames(config.groupName), config.groupName, config.index);
        Started(f1, mb, Worker(sink, [], now, 0, Running, [], []))
  }
}

=== FILE: service_logger.dfy ===
/** Choosing and configuring a logger from the process environment (lib.rs). Each
    environment variable is an input, absent when unset. */
module ServiceLogger {
  import opened Base
  import opened Levels
  import ConsoleLogger
  import RedisLogger

  /** The value of `LOG_KIND` that selects the Redis logger. */
  const REDIS_KIND: string := "REDIS"

  /** `ALLOC_INDEX` when it is unset. */
  const DEFAULT_ALLOC_INDEX: string := "0"

  datatype ServiceLoggerKind = ConsoleKind | RedisKind

  /** `ServiceLoggerEnv`. */
  datatype Env = Env(
    logRedisConnectionString: Option<string>,
    logKind: ServiceLoggerKind,
    groupName: Option<string>,
    allocIndex: Option<string>)

  /** `ServiceLoggerEnv::from_env`, given `LOG_KIND`, `LOG_REDIS_CONNECTION_STRING`,
      `GROUP_NAME` and `ALLOC_INDEX`: the Redis logger exactly when `LOG_KIND` is
      exactly `REDIS`; the other variables are kept as they are. */
  function FromEnv(logKind: Option<string>, connection: Option<string>, group: Option<string>, allocIndex: Option<string>)
    : (e: Env)
    ensures e.logKind == RedisKind <==> logKind == Some(REDIS_KIND)
    ensures e.logRedisConnectionString == connection && e.groupName == group && e.allocIndex == allocIndex
  {
    var kind := if logKind.Some? && logKind.value == REDIS_KIND then RedisKind else ConsoleKind;
    Env(connection, kind, group, allocIndex)
  }

  /** What `init_from_env` goes on to do. */
  datatype Plan =
    | Panic(message: string)
    | InitConsole(console: ConsoleLogger.Config)
    | InitRedis(redis: RedisLogger.Config)

  /** `ServiceLogger::init_from_env`, given the environment and `RUST_LOG`. The Redis
      logger needs a connection string and a group name, checked in that order, and
      missing either is fatal; a missing `ALLOC_INDEX` becomes `"0"`. The console
      logger takes its level from `RUST_LOG`. */
  function InitFromEnv(env: Env, rustLog: Option<string>): (p: Plan)
    ensures p.InitConsole? <==> env.logKind == ConsoleKind
    ensures p.Panic? <==>
      env.logKind == RedisKind && (env.logRedisConnectionString.None? || env.groupName.None?)
    ensures p.Panic? && env.logRedisConnectionString.None? ==> p.message == "MISSING LOG_REDIS_CONNECTION_STRING"
    ensures p.Panic? && env.logRedisConnectionString.Some? ==> p.message == "GROUP_NAME"
    ensures p.InitConsole? ==> p.console.maxLogLevel == ConsoleLogger.ParseRustLog(rustLog)
    ensures p.InitRedis? ==>
      && p.redis.maxLogLevel == Info
      && Some(p.redis.redisConnectionString) == env.logRedisConnectionString
      && Some(p.redis.groupName) == env.groupName
      && (env.allocIndex.Some? ==> p.redis.index == env.allocIndex.value)
      && (env.allocIndex.None? ==> p.redis.index == DEFAULT_ALLOC_INDEX)
  {
    match env.logKind
    case ConsoleKind => InitConsole(ConsoleLogger.DefaultConfig(rustLog))
    case RedisKind =>
      if env.logRedisConnectionString.None? then Panic("MISSING LOG_REDIS_CONNECTION_STRING")
      else if env.groupName.None? then Panic("GROUP_NAME")
      else
        InitRedis(RedisLogger.NewConfig(
          env.logRedisConnectionString.value,
          env.groupName.value,
          env.allocIndex.GetOr(DEFAULT_ALLOC_INDEX)))
  }

  /** The whole decision from the raw variables: a console logger at `Info` whenever
      neither `LOG_KIND` nor `RUST_LOG` is set, whatever else is. */
  lemma DefaultsToConsoleAtInfo(connection: Option<string>, group: Option<string>, allocIndex: Option<string>)
    ensures InitFromEnv(FromEnv(None, connection, group, allocIndex), None) == InitConsole(ConsoleLogger.Config(Info))
  {
  }

  /** Every value of `LOG_KIND` other than exactly `REDIS`, including near misses in
      case or spacing, leads to the console logger. */
  lemma OtherKindsAreConsole(logKind: string, connection: Option<string>, group: Option<string>,
                             allocIndex: Option<string>, rustLog: Option<string>)
    requires logKind != REDIS_KIND
    ensures InitFromEnv(FromEnv(Some(logKind), connection, group, allocIndex), rustLog).InitConsole?
  {
  }
}

=== FILE: utf8.dfy ===
/** UTF-8, the byte form of a Rust `str`: the encoder `as_bytes` and the validating
    decoder `str::from_utf8` that bincode applies to every string it reads back. */
module Utf8 {
  import opened Base

  /** The value bits of a byte once its marker bits `marker` are taken off. */
  function Payload(b: int, marker: int): int
  {
    b - marker
  }

  /** A continuation byte `10xxxxxx`. */
  predicate IsCont(b: byte)
  {
    0x80 <= b < 0xC0
  }

  /** The one to four bytes of a scalar value. */
  function EncodeChar(c: char): (r: seq<byte>)
    ensures 1 <= |r| <= 4
    ensures forall i :: 1 <= i < |r| ==> IsCont(r[i])
  {
    var n := c as int;
    var q := n / 64;
    var p := q / 64;
    if n < 0x80 then [n]
    else if n < 0x800 then [0xC0 + q, 0x80 + n % 64]
    else if n < 0x10000 then [0xE0 + p, 0x80 + q % 64, 0x80 + n % 64]
    else [0xF0 + p / 64, 0x80 + p % 64, 0x80 + q % 64, 0x80 + n % 64]
  }

  /** A code point that Rust accepts as a `char`: not a surrogate, at most U+10FFFF. */
  predicate IsScalar(n: int)
  {
    (0 <= n < 0xD800) || (0xE000 <= n < 0x110000)
  }

  /** Reads one scalar value from the front of `s`, with the number of bytes it took;
      rejects bad lead bytes, missing or bad continuation bytes, overlong forms,
      surrogates and values above U+10FFFF. */
  function DecodeChar(s: seq<byte>): (r: Option<(char, nat)>)
    requires |s| > 0
    ensures r.Some? ==> 1 <= r.value.1 <= |s|
  {
    var b0: int := s[0];
    if b0 < 0x80 then Some((b0 as char, 1))
    else if 0xC2 <= b0 < 0xE0 then
      if |s| < 2 || !IsCont(s[1]) then None
      else Some(((Payload(b0, 0xC0) * 64 + Payload(s[1], 0x80)) as char, 2))
    else if 0xE0 <= b0 < 0xF0 then
      if |s| < 3 || !IsCont(s[1]) || !IsCont(s[2]) then None
      else
        var n := Payload(b0, 0xE0) * 4096 + Payload(s[1], 0x80) * 64 + Payload(s[2], 0x80);
        if n < 0x800 || !IsScalar(n) then None else Some((n as char, 3))
    else if 0xF0 <= b0 < 0xF5 then
      if |s| < 4 || !IsCont(s[1]) || !IsCont(s[2]) || !IsCont(s[3]) then None
      else
        var n := Payload(b0, 0xF0) * 262144 + Payload(s[1], 0x80) * 4096
          + Payload(s[2], 0x80) * 64 + Payload(s[3], 0x80);
        if n < 0x10000 || !IsScalar(n) then None else Some((n as char, 4))
    else None
  }

  /** `as_bytes`: the concatenated encodings of the characters. */
  function Encode(s: string): (r: seq<byte>)
    ensures |s| <= |r| <= 4 * |s|
  {
    if s == [] then [] else EncodeChar(s[0]) + Encode(s[1..])
  }

  /** `str::from_utf8`: the string the bytes spell, or `None` when they are not UTF-8. */
  function Decode(s: seq<byte>): (r: Option<string>)
    decreases |s|
  {
    if s == [] then Some([])
    else
      match DecodeChar(s)
      case None => None
      case Some((c, k)) =>
        match Decode(s[k..])
        case None => None
        case Some(rest) => Some([c] + rest)
  }

  /** Splitting off the low six bits. */
  lemma DivMod64(n: int)
    requires 0 <= n
    ensures n == (n / 64) * 64 + n % 64 && 0 <= n % 64 < 64
  {
  }

  /** Joining six low bits onto a prefix. */
  lemma JoinMod64(x: int, y: int)
    requires 0 <= x && 0 <= y < 64
    ensures (x * 64 + y) / 64 == x && (x * 64 + y) % 64 == y
  {
  }

  lemma DecodeEncodeChar2(c: char, rest: seq<byte>)
    requires 0x80 <= c as int < 0x800
    ensures DecodeChar(EncodeChar(c) + rest) == Some((c, 2))
  {
    var n := c as int;
    var s := EncodeChar(c) + rest;
    DivMod64(n);
    assert s[0] == 0xC0 + n / 64 && s[1] == 0x80 + n % 64;
    assert Payload(s[0], 0xC0) * 64 + Payload(s[1], 0x80) == n;
  }

  lemma DecodeEncodeChar3(c: char, rest: seq<byte>)
    requires 0x800 <= c as int < 0x10000
    ensures DecodeChar(EncodeChar(c) + rest) == Some((c, 3))
  {
    var n := c as int;
    var q := n / 64;
    var s := EncodeChar(c) + rest;
    DivMod64(n);
    DivMod64(q);
    assert s[0] == 0xE0 + q / 64 && s[1] == 0x80 + q % 64 && s[2] == 0x80 + n % 64;
    assert Payload(s[0], 0xE0) * 64 + Payload(s[1], 0x80) == q;
    assert Payload(s[0], 0xE0) * 4096 + Payload(s[1], 0x80) * 64 + Payload(s[2], 0x80) == n;
  }

  lemma DecodeEncodeChar4(c: char, rest: seq<byte>)
    requires 0x10000 <= c as int
    ensures DecodeChar(EncodeChar(c) + rest) == Some((c, 4))
  {
    var n := c as int;
    var q := n / 64;
    var p := q / 64;
    var s := EncodeChar(c) + rest;
    DivMod64(n);
    DivMod64(q);
    DivMod64(p);
    assert s[0] == 0xF0 + p / 64 && s[1] == 0x80 + p % 64;
    assert s[2] == 0x80 + q % 64 && s[3] == 0x80 + n % 64;
    var v := Payload(s[0], 0xF0) * 262144 + Payload(s[1], 0x80) * 4096 + Payload(s[2], 0x80) * 64 + Payload(s[3], 0x80);
    assert v == ((p / 64 * 64 + p % 64) * 64 + q % 64) * 64 + n % 64;
  }

  /** The decoder reads back exactly the character the encoder wrote, whatever follows it. */
  lemma DecodeEncodeChar(c: char, rest: seq<byte>)
    ensures DecodeChar(EncodeChar(c) + rest) == Some((c, |EncodeChar(c)|))
  {
    var n := c as int;
    if n < 0x80 {
    } else if n < 0x800 {
      DecodeEncodeChar2(c, rest);
    } else if n < 0x10000 {
      DecodeEncodeChar3(c, rest);
    } else {
      DecodeEncodeChar4(c, rest);
    }
  }

  /** Round trip: every string's bytes are valid UTF-8 and decode back to the string. */
  lemma {:induction false} DecodeEncode(s: string)
    ensures Decode(Encode(s)) == Some(s)
    decreases |s|
  {
    if s != [] {
      var e := EncodeChar(s[0]);
      var t := Encode(s[1..]);
      DecodeEncodeChar(s[0], t);
      assert (e + t)[|e|..] == t;
      DecodeEncode(s[1..]);
      assert [s[0]] + s[1..] == s;
    }
  }

  lemma EncodeDecodeChar2(s: seq<byte>)
    requires |s| > 0 && 0xC2 <= s[0] < 0xE0 && DecodeChar(s).Some?
    ensures EncodeChar(DecodeChar(s).value.0) == s[..2]
  {
    var c := DecodeChar(s).value.0;
    var x, y := Payload(s[0], 0xC0), Payload(s[1], 0x80);
    assert c as int == x * 64 + y;
    JoinMod64(x, y);
    assert EncodeChar(c) == [s[0], s[1]];
  }

  lemma EncodeDecodeChar3(s: seq<byte>)
    requires |s| > 0 && 0xE0 <= s[0] < 0xF0 && DecodeChar(s).Some?
    ensures EncodeChar(DecodeChar(s).value.0) == s[..3]
  {
    var c := DecodeChar(s).value.0;
    var x, y, z := Payload(s[0], 0xE0), Payload(s[1], 0x80), Payload(s[2], 0x80);
    assert c as int == (x * 64 + y) * 64 + z;
    JoinMod64(x * 64 + y, z);
    JoinMod64(x, y);
    assert EncodeChar(c) == [s[0], s[1], s[2]];
  }

  lemma EncodeDecodeChar4(s: seq<byte>)
    requires |s| > 0 && 0xF0 <= s[0] && DecodeChar(s).Some?
    ensures EncodeChar(DecodeChar(s).value.0) == s[..4]
  {
    var c := DecodeChar(s).value.0;
    var w, x, y, z := Payload(s[0], 0xF0), Payload(s[1], 0x80), Payload(s[2], 0x80), Payload(s[3], 0x80);
    assert c as int == ((w * 64 + x) * 64 + y) * 64 + z;
    JoinMod64((w * 64 + x) * 64 + y, z);
    JoinMod64(w * 64 + x, y);
    JoinMod64(w, x);
    assert EncodeChar(c) == [s[0], s[1], s[2], s[3]];
  }

  /** Decoding the front of a longer buffer: when the decoder accepts the first bytes,
      they are exactly the encoding of the character it returns. */
  lemma EncodeDecodeChar(s: seq<byte>)
    requires |s| > 0 && DecodeChar(s).Some?
    ensures EncodeChar(DecodeChar(s).value.0) == s[..DecodeChar(s).value.1]
  {
    var b0: int := s[0];
    if b0 < 0x80 {
      assert EncodeChar(DecodeChar(s).value.0) == [s[0]];
    } else if b0 < 0xE0 {
      EncodeDecodeChar2(s);
    } else if b0 < 0xF0 {
      EncodeDecodeChar3(s);
    } else {
      EncodeDecodeChar4(s);
    }
  }

  /** The decoder accepts only encodings: whatever it returns re-encodes to its input. */
  lemma EncodeCons(c: char, rest: string)
    ensures Encode([c] + rest) == EncodeChar(c) + Encode(rest)
  {
    assert ([c] + rest)[1..] == rest;
  }

  lemma SplitAt(s: seq<byte>, k: nat)
    requires k <= |s|
    ensures s[..k] + s[k..] == s
  {
  }

  lemma {:induction false} EncodeDecode(s: seq<byte>)
    requires Decode(s).Some?
    ensures Encode(Decode(s).value) == s
    decreases |s|
  {
    if s != [] {
      var (c, k) := DecodeChar(s).value;
      var more := Decode(s[k..]).value;
      EncodeDecodeChar(s);
      EncodeDecode(s[k..]);
      assert Decode(s).value == [c] + more;
      EncodeCons(c, more);
      SplitAt(s, k);
    }
  }
}
